=== FILE: README.md ===
# scraper: a Dafny model of the crawl bookkeeping

This project models the orchestration core of the `nodejs-web-scraper` library (the
WeClimb-it scraper). That core covers five things:

- **The run context** (`Scraper`). It builds its configuration from defaults and the user's
  settings, with the skip codes 404, 403 and 400 in front of the user's own. It refuses a
  missing or incomplete configuration. Its run state holds the request counters, an append-only
  list of failed iterations and the registry of operations. It decides the completion summary
  and the log files to export.
- **The retry and pacing layer** (`HttpOperation`):
  - the attempt bound `maxRetries + 1`;
  - the skip-code test `shouldStop`;
  - the `currentlyRunning`/`numRequests` bracket around every request;
  - the request-spacer chain, modelled as a slot counter.
- **The page processor** (`PageHelper`). It turns one address into an iteration record
  `{address, data, error?, successful?}`, and it records a failure on the record, on the node
  and on the run. It also covers pagination fan-out, the page validator, the after-response
  hook, the children and the keyed page-object tree.
- **The composite node** (`OpenUrls` with `CompositeInjectMixin`):
  - the concurrency bound;
  - `transformHref`;
  - the data accumulator;
  - the recursive injection of the run context, which registers nodes in pre-order.
- **The DOM helpers** of `utils/cheerio.js`:
  - base-tag resolution;
  - JavaScript `slice` semantics on node lists;
  - order-preserving condition filtering, which rejects with the first value the condition throws;
  - the choice between text and html.

Modules:

- `wrappers.dfy` (`Wrappers`): `Option`, `Result` and `Outcome`, the last being pass or
  throw-with-a-value.
- `js_values.dfy` (`JsValues`): thrown JavaScript values, and decimal rendering of counts in
  template strings.
- `records.dfy` (`Records`):
  - node kinds and iteration records;
  - the user hooks, as parameters that return or throw;
  - the calls made into user code;
  - `Env`, the collaborators the model does not contain. These are the HTTP request,
    `stripTags`, `getPaginationUrls`, `getDictionaryKey` and the children's scrape.
- `scraper_config.dfy` (`ScraperConfig`): the pure parts of `Scraper.js`.
- `http_operation.dfy` (`HttpPolicy`): the pure parts of `HttpOperation.js`, plus the contract
  of the retry loop as the function `RetryFrom`.
- `page_spec.dfy` (`PageSpec`): what processing one address, paginating, and a node's scrape
  produce, as functions of the collaborators' answers. These functions are the specifications
  that the imperative methods are proved against.
- `cheerio.dfy` (`CheerioUtils`): `utils/cheerio.js`.
- `crawl.dfy` (`Crawl`): the classes whose fields change in place. These are `Scraper`,
  `OpenUrls` and `PageHelper`, plus `PageCache`, which holds the process-wide statics of
  `PageHelper`.

The worker pools are run sequentially, one url after the other. Two source quirks are
reproduced as written:

- `getPage` reads the helper's own `lastResponse` field, which is never assigned. So every
  fetch issues a request.
- The statics are declared as `lastResponse` and `lasResponseUrl`, but `lastResponseUrl` is
  the one written.

## Model

| member | source | states |
|---|---|---|
| ScraperConfig.ValidateGlobalConfig | Scraper.js:91-97 | passes exactly when the argument is an object whose baseSiteUrl and startUrl are both non-empty |
| ScraperConfig.BuildConfigFailures | Scraper.js:61-78 | construction throws exactly for a non-object, a missing baseSiteUrl or startUrl, or usePuppeteer, each with its own message; the url check comes before the usePuppeteer one |
| ScraperConfig.SkipCodesPrefixed | Scraper.js:64-69 | the skip codes are 404, 403, 400 followed by the user's codes in their order; with no user codes they are exactly those three |
| ScraperConfig.DefaultsApply | Scraper.js:33-50 | a left-out setting keeps its default (concurrency 3, maxRetries 5, delay 200, timeout 6000, tag stripping and console logs on); a given one is taken as given |
| ScraperConfig.SummaryReportsFailures | Scraper.js:176-178 | the summary is "All done, no final errors" iff no iteration failed; otherwise it is the failed-count prefix followed by digits that read back as the count |
| ScraperConfig.SummaryDistinguishesCounts | Scraper.js:176-178 | two runs with different failed counts get different summaries |
| JsValues.NatToString | Scraper.js:177 | a count renders as at least one decimal digit, with no leading zero |
| JsValues.ParseNatToString | Scraper.js:177 | reading the rendered digits back gives the count |
| JsValues.NatToStringInjective | Scraper.js:181 | different counts render differently |
| HttpPolicy.ShouldStopCases | operations/HttpOperation.js:39-50 | shouldStop holds iff the response status, or the thrown value itself when there is no response, is one of errorCodesToSkip |
| HttpPolicy.BuiltInCodesAlwaysStop | operations/HttpOperation.js:39-50 | whatever the user configured, a 404, 403 or 400 response is never retried |
| HttpPolicy.EmitError | operations/HttpOperation.js:30-32 | getException is called with the error exactly when it is configured |
| HttpPolicy.ValidateConditionHook | operations/HttpOperation.js:12-20 | an operation that supports conditions refuses a configured condition that is not a function, with the message naming its type; nothing else is refused |
| HttpPolicy.RetryFrom | operations/HttpOperation.js:62-67 | a retry run starting at attempt k makes at least k attempts |
| HttpPolicy.RetryAttemptBound | operations/HttpOperation.js:35-37 | the number of attempts never exceeds maxAttempts = maxRetries + 1, and is at least one |
| HttpPolicy.RetryOutcome | operations/HttpOperation.js:34-68 | the run ends with its last attempt's result; a failure there is a skip code or the last allowed attempt; every earlier attempt failed with a retryable code |
| HttpPolicy.RetryStopsOnSkipCode | operations/HttpOperation.js:39-50 | a failure with a skip code ends the run on that attempt, with no retry reported |
| HttpPolicy.RetryExhausts | operations/HttpOperation.js:35-37 | a request that keeps failing with retryable codes is attempted exactly maxAttempts times |
| HttpPolicy.RetryReportsNumbered | operations/HttpOperation.js:52-60 | onError reports retry numbers k, k + 1, ..., one for each attempt after the first |
| HttpPolicy.RetryCallsFrom | operations/HttpOperation.js:52-67 | every call a retry run makes into user code comes from an attempt or from onError |
| PageSpec.FailedRecord | operations/helpers/PageHelper.js:64-67 | a failed record keeps the address, has empty data, and carries an error string with successful = false |
| PageSpec.Settle | operations/helpers/PageHelper.js:55-72 | after the fetch: the record has the address; it carries an error iff successful is false, and is never marked successful; an error empties its data and is the one error recorded; the nested nodes' failures are reported before it and their requests are counted |
| PageSpec.FetchCalls | operations/helpers/PageHelper.js:107-145 | fetching a page calls only getPageHtml and getException |
| PageSpec.PageIterationRecord | operations/helpers/PageHelper.js:33-72 | a non-paginated record always has the processed address, including on error; an error means successful = false and empty data; the errors recorded are exactly the record's, and the node's own error is the last failure reported; on a later run the only requests, reports and changes to the statics are the nested nodes' |
| PageSpec.FirstRunIgnoresCache | operations/helpers/PageHelper.js:39-53 | on a first run, the record, calls, requests, errors and reported failures do not depend on the statics beforehand |
| PageSpec.ValidatorAbort | operations/helpers/PageHelper.js:43-52 | a rejected page gives empty data and no error, nothing is reported, only the fetch's requests are made, and after the fetch only the validator runs: no after-response hook, no children, no page-object hook |
| PageSpec.SuccessfulRecord | operations/helpers/PageHelper.js:39-63 | when every step returns, the record's data is exactly the children's results on the fetched page, with no error and no successful flag; the children run with the statics holding this page and address, and the statics afterwards are what they leave |
| PageSpec.NestedReports | operations/helpers/PageHelper.js:55-69 | once the children are reached, the failures the nested nodes report go to the run before the node's own error, their requests count with the node's fetch attempts, and the statics are those the nested nodes leave |
| PageSpec.QuietPage | operations/helpers/PageHelper.js:33-72 | with children that report nothing and leave the statics alone, a page reports exactly the node's own errors, its requests are its fetch attempts (none on a later run), a first run notes the address and keeps the fetched page in the statics, and a later run leaves them unchanged |
| PageSpec.PageObjectTreeKeys | operations/helpers/PageHelper.js:152-163 | with a collision-avoiding getDictionaryKey, the tree has one distinct key per child, mapped to that child's data |
| PageSpec.PageObjectTreeSize | operations/helpers/PageHelper.js:156-159 | every child adds exactly one key |
| PageSpec.PageObjectTreeValue | operations/helpers/PageHelper.js:156-159 | a later child never overwrites an earlier child's entry |
| PageSpec.AfterResponseHooksCases | operations/helpers/PageHelper.js:170-178 | without getPageResponse nothing happens; a non-function throws the fixed message and calls nothing; a function is called once with the response, and its throw is passed on |
| PageSpec.PageObjectHookCases | operations/helpers/PageHelper.js:152-163 | getPageObject is called, once, exactly when it is set, with the keyed tree and the address; its throw is passed on |
| PageSpec.PagesRunRecords | operations/helpers/PageHelper.js:80-94 | one record per pagination url, in url order, each with its url as address and each as processed on its own; the errors are those of the records |
| PageSpec.PaginateRecord | operations/helpers/PageHelper.js:80-100 | paginate gives one record for the address, with no error, whose data has exactly one record per derived url, each processed without pagination |
| PageSpec.IterationRunRecord | operations/helpers/PageHelper.js:26-31 | processOneIteration returns a record for the address it was given; with pagination it is exactly paginate's record; the errors recorded are the record's |
| PageSpec.UrlsRunRecords | operations/OpenUrls.js:85-100 | one record per url, in url order, each the record of the transformed url; getPageData, when configured, receives exactly these records in this order |
| PageSpec.UrlsRunQuiet | operations/OpenUrls.js:85-100 | with children that report nothing, the failures a node's scrape reports are exactly the errors its records carry, in record order |
| PageSpec.PaginatedUrlsRun | operations/OpenUrls.js:82-91 | with a pagination key every url is paginated, and its record holds one page record per derived url |
| PageSpec.TransformDefault | operations/OpenUrls.js:38-41 | without a transformHref function a url is opened as given |
| CheerioUtils.GetBaseUrlFromBaseTag | utils/cheerio.js:6-24 | undefined unless there is exactly one base tag; null when its href is missing or empty; the site's base url for "/"; any other href unchanged |
| CheerioUtils.ResolveIndex | utils/cheerio.js:36-40 | a slice index is clamped into the list; a negative one counts from the end |
| CheerioUtils.SliceIsContiguous | utils/cheerio.js:33-44 | a sliced node list is a contiguous run of the matches |
| CheerioUtils.SliceBounds | utils/cheerio.js:36-40 | [a, b] within bounds gives nodes a up to b exclusive; a start within bounds and no end gives the nodes from there on; a negative start takes that many from the end; a start past the end gives none |
| CheerioUtils.NodeListKeepsAll | utils/cheerio.js:36-41 | no slice, slice 0 or an empty array keeps every match |
| CheerioUtils.NumberSliceFrom | utils/cheerio.js:37-39 | a number n keeps the matches from index n on; a negative n keeps the last -n; a start past the end keeps none |
| CheerioUtils.NumberSliceIsArraySlice | utils/cheerio.js:37-39 | a number n slices like the array [n] |
| CheerioUtils.AcceptedIsFilter | utils/cheerio.js:59-74 | the element list is the order-preserving subsequence of the nodes whose condition held, each asked with its own index |
| CheerioUtils.NoConditionKeepsAll | utils/cheerio.js:70-72 | without a condition nothing throws and every node is kept, in order |
| CheerioUtils.FilteredThrowsFirst | utils/cheerio.js:59-74 | filtering rejects exactly when the condition throws on some node, with what it threw on the first such node; otherwise it gives the accepted nodes |
| CheerioUtils.FilteredStaysThrown | utils/cheerio.js:61-67 | once the condition has thrown, no later node changes the outcome |
| CheerioUtils.CreateElementList | utils/cheerio.js:54-77 | the loop gives the sliced list filtered as Filtered: the accepted nodes, or a rejection with the first value the condition throws, no later node being asked; the index given to the condition advances for excluded nodes too |
| CheerioUtils.Trim | utils/cheerio.js:88 | trim removes only whitespace and line terminators at the ends, and leaves neither at either end |
| CheerioUtils.TrimIdempotent | utils/cheerio.js:88 | trimming twice is trimming once |
| CheerioUtils.TrimKeepsClean | utils/cheerio.js:88 | a string with no whitespace at either end is left unchanged |
| CheerioUtils.GetNodeContent | utils/cheerio.js:86-97 | html for content type "html"; for anything else, the text, trimmed iff shouldTrim |
| CheerioUtils.ContentTypeDefaultsToText | utils/cheerio.js:89-95 | an unknown content type, or none, reads like "text" |
| Crawl.PageCache.constructor | operations/helpers/PageHelper.js:9-10 | the statics start with no response and no url |
| Crawl.Scraper.FromConfig | Scraper.js:52-59 | a fresh run state has every counter at 0, empty lists, an empty spacer, and isFirstRun set |
| Crawl.Scraper.Create | Scraper.js:31-79 | constructing succeeds exactly when the configuration builds, with that configuration and a fresh state; otherwise it gives the thrown message |
| Crawl.Scraper.RegisterOperation | Scraper.js:81-83 | the node goes at the end of the registry; nothing else changes |
| Crawl.Scraper.ReportFailedScrapingAction | Scraper.js:149-160 | the string goes at the end of the failed list; nothing else changes; areThereRepeatableErrors then holds |
| Crawl.Scraper.CreateLogs | Scraper.js:212-224 | one file per registered node in registry order, named "log" for a Root and else the node's name, holding its data; then "finalErrors" with the failed list |
| Crawl.Scraper.Complete | Scraper.js:165-182 | log files exactly when a log path is set; the failed-count summary; the overall-files line |
| Crawl.Scraper.Scrape | Scraper.js:104-113 | a non-Root throws before anything changes (state, spacer, statics, the nodes' run contexts, the root's helper, data and errors); otherwise the tree is injected, and a throw there stops the run with only the registry grown; else the registry holds the tree in pre-order, the root's records and errors go to its data and errors, the failures reported (nested ones included) to the failed list, the requests to the counter and the spacer, the statics end as the run leaves them, the root keeps its page helper (or gets one), the injected nodes refer to this run and no other node changes context, and the run completes |
| Crawl.Scraper.ScrapeRoot | Scraper.js:108-112 | injection, then, if it went through, the root scraped and the run completed, with the registry in pre-order, the state, spacer, statics, page helper, data and errors given; the injected nodes refer to this run and no other node changes context; a failed injection changes only the registry and those run contexts |
| Crawl.Scraper.ScrapeAndComplete | Scraper.js:110-112 | the root's records and errors are appended to its data and errors, and the failures it and its nested nodes report and the requests they issue to the state and the spacer, the statics end as the run leaves them and the root keeps its page helper (or gets one), before the summary is taken |
| Crawl.Scraper.InjectTree | Scraper.js:108 | the root takes the run context; the registry grows by the nodes injected, each of which refers to this run, and every other node of the tree keeps its context; success means all of them in pre-order, and the root has urls |
| Crawl.Scraper.ScrapeTree | Scraper.js:110 | the root's records and errors go to its data and errors, the failures and requests of it and its nested nodes to the state and the spacer; the statics end as the run leaves them, and the root keeps its page helper (or gets a fresh one of its own) |
| Crawl.Scraper.ScrapeOnce | Scraper.js:125-141 | the root scraped as ScrapeTree states; the running count is left as found, and the run completes exactly when that count is 0 |
| Crawl.Scraper.IndefiniteScrape | Scraper.js:119-144 | the same guard and injection as scrape, with the same frames when they throw; the first-run flag is returned; the injected nodes refer to this run and no other node changes context; past injection the registry, data, errors, failed list, counters, spacer, statics and page helper are as after scrape; the run completes only when nothing is running; the flag is cleared only after a run that got past injection |
| Crawl.Scraper.ScrapeRootOnce | Scraper.js:123-141 | injection, then, if it went through, one pass over the root with the state, spacer, statics, page helper, data and errors given, completing exactly when nothing is running; the injected nodes refer to this run and no other node changes context; a failed injection changes only the registry and those run contexts |
| Crawl.Scraper.TakeNestedWork | Scraper.js:158-160 | the failures the nested nodes report go to the end of the shared failed list in order; their requests are counted and take spacer slots; nothing else changes |
| Crawl.OpenUrls.constructor | operations/OpenUrls.js:31-42 | a node starts with no children, no run context, no page helper, and empty data and errors |
| Crawl.OpenUrls.Create | operations/HttpOperation.js:9-24 | construction throws exactly for a configured condition that is not a function |
| Crawl.OpenUrls.AddOperation | operations/OpenUrls.js:48-50 | the child goes at the end of the children |
| Crawl.OpenUrls.ValidateOperationArguments | operations/OpenUrls.js:56-61 | throws the fixed message exactly when the urls were not given as a list |
| Crawl.OpenUrls.InjectScraper | operations/mixins/CompositeInjectMixin.js:7-17 | the node takes the run context and registers itself before its children; the children are injected in order, stopping at the first throw; the node validates itself last; every registered node refers to the run context |
| Crawl.OpenUrls.InjectOperations | operations/mixins/CompositeInjectMixin.js:12-14 | the children are injected in order with the same run context, and the registry grows by the nodes injected |
| Crawl.OpenUrls.InjectChild | operations/mixins/CompositeInjectMixin.js:13 | injecting one more child extends the registry by that child's subtree and keeps the earlier ones injected |
| Crawl.OpenUrls.ChildrenInjectStopped | operations/mixins/CompositeInjectMixin.js:12-14 | once a child's injection throws, no later child is injected |
| Crawl.OpenUrls.InjectSucceeds | operations/mixins/CompositeInjectMixin.js:7-17 | injection succeeds iff every node of the subtree has urls, and then the registry gains the subtree in pre-order; else it throws the urls message |
| Crawl.OpenUrls.ChildrenInjectSucceed | operations/mixins/CompositeInjectMixin.js:12-14 | the children's injection succeeds iff every node under them has urls, registering them in pre-order |
| Crawl.OpenUrls.InjectIsPrefix | operations/mixins/CompositeInjectMixin.js:10-16 | even when it throws, injection registers a prefix of the pre-order, starting with the node itself |
| Crawl.OpenUrls.ChildrenInjectIsPrefix | operations/mixins/CompositeInjectMixin.js:12-14 | the children register a prefix of their pre-order; a throw needs at least one child |
| Crawl.OpenUrls.BeforePromiseFactory | operations/HttpOperation.js:84-96 | currentlyRunning and numRequests each go up by one, and the caller takes the next spacer slot |
| Crawl.OpenUrls.AfterPromiseFactory | operations/HttpOperation.js:101-106 | currentlyRunning goes down by one; nothing else changes |
| Crawl.OpenUrls.CreateDelay | operations/HttpOperation.js:111-118 | the caller waits behind the delays already queued, and exactly one delay is appended |
| Crawl.OpenUrls.Scrape | operations/OpenUrls.js:67-109 | creates the page helper if absent and keeps an existing one; the bound is 3 if a child is OpenUrls and the configured concurrency otherwise; the records are appended to data and returned with the node's kind and name; errors, reported failures (nested ones included) and requests are counted |
| Crawl.OpenUrls.ScrapeUrls | operations/OpenUrls.js:83-100 | the loop processes every url in turn, and its records, calls, errors, reported failures (nested ones included) and request counts are those of the specification run |
| Crawl.OpenUrls.ScrapeUrl | operations/OpenUrls.js:87-96 | one url: the page helper's record for the transformed href, then getPageData with that record when it is configured |
| Crawl.PageHelper.constructor | operations/helpers/PageHelper.js:16-18 | a helper belongs to its operation, and its own lastResponse is empty |
| Crawl.PageHelper.PromiseFactory | operations/helpers/PageHelper.js:108-140 | one attempt: the before/after bracket leaves currentlyRunning unchanged even when the attempt throws; one more request is counted and one more spacer slot is used |
| Crawl.PageHelper.GetPage | operations/helpers/PageHelper.js:107-145 | the result and calls of the retry run over the promise factory; requests and spacer slots grow by its number of attempts |
| Crawl.PageHelper.RepeatPromiseUntilResolved | operations/HttpOperation.js:34-68 | the retry loop from attempt k matches RetryFrom: an attempt, then stop or emitError and the next one |
| Crawl.PageHelper.RunAfterResponseHooks | operations/helpers/PageHelper.js:170-178 | behaves as AfterResponseHooksCases states |
| Crawl.PageHelper.RunGetPageObjectHook | operations/helpers/PageHelper.js:152-163 | the loop builds the keyed tree of PageObjectTreeKeys and calls the hook as PageObjectHookCases states |
| Crawl.PageHelper.ProcessOneIteration | operations/helpers/PageHelper.js:26-73 | with pagination it is paginate; otherwise the single-page processing; the record, the node's errors, the failed list (nested reports included), the counters and the statics (with the nested nodes' writes) follow the specification run |
| Crawl.PageHelper.ProcessPage | operations/helpers/PageHelper.js:33-72 | a first run notes the url and fetches into the statics, and a fetch or validator throw is recorded; the validator may abort; then the steps after the response run on the statics, which end as the nested nodes leave them |
| Crawl.PageHelper.SettleSteps | operations/helpers/PageHelper.js:55-63 | on success the record holds the children's results and only the nested nodes' failures and requests reach the run; on a throw exactly one error goes on the node, and on the failed list after the nested ones; the statics are left as the nested nodes leave them |
| Crawl.PageHelper.RecordFailure | operations/helpers/PageHelper.js:64-69 | the error string goes on the record (marked unsuccessful), at the end of the node's errors and at the end of the failed list |
| Crawl.PageHelper.Paginate | operations/helpers/PageHelper.js:80-100 | one record for the address, holding the records of the derived urls in url order |
| Crawl.PageHelper.ProcessPages | operations/helpers/PageHelper.js:84-94 | the loop processes each pagination url without pagination, and its records, calls, errors and counters are those of the specification run |

## Left out

- Concurrency. `mapPromisesWithLimitation` and the `qyu` worker pool are run as a sequential
  loop. The concurrency bound is computed but not enforced. `paginate` pushes results in
  completion order, which here is url order.
- Timing. `createDelay` waits for wall-clock delays and the request timeout is in ms; the
  spacer is modelled as a count of queued delays.
- The retry loop body. `rpur` is not part of this model. It is modelled as `RetryFrom`: stop on
  success, on a skip code or at `maxAttempts`, with onError between attempts. There is no
  backoff. `HttpPolicy.RetryReportsNumbered` assumes that `rpur` passes `retries = k - 1` to
  onError after attempt k, so that it logs retry number k.
- `Root.js`, `Operation.js` and `CompositeScrapeMixin.js` are not part of this model:
  - A Root is a node of kind Root, scraped with the OpenUrls procedure.
  - The children's scrape is a function in `Env` of the page and the statics as they stand. It
    gives their results, the failures the nested nodes report to the shared run context, in
    order, the requests they issue, and the statics they leave. These reach the failed list, the
    request counter, the spacer and the shared statics. It does not report files downloaded.
  - `handleFailedScrapingIteration` is taken to forward to `reportFailedScrapingAction`.
  - `getData` is taken to return the node's data.
- `Crawl.OpenUrls.Create` takes `this.condition` to be the configured condition, so an operation
  supports a condition exactly when one is configured. `Operation.js`, which decides this, is not
  part of this model.
- `Crawl.OpenUrls.InjectScraper` injects every node kind the same way, a Root and leaf operations
  included: CompositeInjectMixin's procedure, then OpenUrls's urls check. So
  `Crawl.OpenUrls.InjectSucceeds` and `Crawl.Scraper.InjectTree` make a Root or a leaf without
  urls throw the urls message. Their own `injectScraper` and `validateOperationArguments` are in
  `Root.js` and `Operation.js`, which are not part of this model.
- Root's own use of `isFirstRun`. The flag is returned, but the root is scraped with the
  OpenUrls procedure, which always processes its urls as a first run.
- `deepSpread` is modelled as a flat key override of the known settings.
- `auth`, `headers`, `proxy` and `timeout` are passed to the request, but are not modelled.
- Network I/O, `stripTags`, `getPaginationUrls` and `getDictionaryKey` are parameters in `Env`.
  The page validator receives the html string but not the cheerio document built from it.
- Logging and I/O:
  - console logging;
  - the `done` ReplaySubject;
  - writing log files;
  - a failed write, and the catch around log creation.
- `Crawl.Scraper.IndefiniteScrape`: the success and error callbacks are not modelled.
- `Crawl.Scraper.CreateLogs`: a nested node's data and errors fields are not updated by its
  scrape, because that scrape is a function in `Env`. Its log shows what the node held before.
  Its failures and requests do reach the run.
- `HttpPolicy.EmitError`: a throw from getException is not modelled. In the source it rejects
  onError, and what the retry loop then does is up to `rpur`. Here the hook's outcome is ignored
  and the loop goes on.
- `destroy()` only logs a deprecation message.
- The `counter` field set in the HttpOperation constructor is not modelled.
- `Crawl.OpenUrls.ScrapeUrl`: a throw from getPageData, or its returned promise, is not
  modelled. The record is kept and the call is listed.
- `PageSpec.Transform`: a throw from transformHref is not modelled. The source calls it outside
  any try (operations/OpenUrls.js:89), so a throw there rejects scrape; here transformHref is a
  total function.
- `Crawl.Scraper.Scrape` and `Crawl.Scraper.Complete`: `downloadedFiles` is never updated. The
  download operations that count files are not part of this model, and the children's scrape
  reports no downloads, so the "Overall files" line shows the count the run started with.
- The Error object that `shouldStop` builds and discards is not modelled.
- `Crawl.OpenUrls.Scrape` requires the urls to be given as a list. In the source, injection
  validates this before any scrape, and `scrape` on a missing list is not handled.
- `Crawl.OpenUrls.AddOperation` keeps only the node's own footprint valid. It assumes trees are
  built children first; adding to a node already inside another tree leaves the outer
  footprint stale.
- The cheerio query engine (`$(selector)`, `$(node)`, `.text()` and `.html()`). A selector's
  matches are a sequence, and an element is its text and its html.
- `PageSpec.PageObjectTreeKeys` assumes a `getDictionaryKey` that never picks a key already in
  the tree. With a colliding key, a later child would overwrite an earlier one.

=== FILE: cheerio.dfy ===
/**
 * The DOM helpers the operations use on a loaded page: the `<base>` tag lookup, node lists
 * with an optional slice, element lists filtered by a condition, and a node's content.
 * A selector's matches are given as a sequence (the query engine itself is not modelled).
 */
module CheerioUtils {
  import opened Wrappers

  // ---------------------------------------------------------------------------
  // getBaseUrlFromBaseTag
  // ---------------------------------------------------------------------------

  /** A matched `<base>` element: its `href` attribute, when it has one. */
  datatype BaseTag = BaseTag(href: Option<string>)

  /** What getBaseUrlFromBaseTag returns: undefined, null, or a url string. */
  datatype BaseUrl = Undefined | Null | Url(url: string)

  /**
   * The base url a page declares. Only a page with exactly one `<base>` element declares one;
   * an absent or empty `href` gives null, and the root href "/" stands for the site's base url.
   */
  function GetBaseUrlFromBaseTag(baseTags: seq<BaseTag>, baseSiteUrl: string): (r: BaseUrl)
    ensures |baseTags| != 1 <==> r.Undefined?
    ensures r.Null? <==> |baseTags| == 1 && (baseTags[0].href.None? || baseTags[0].href.value == "")
    ensures r.Url? ==> |baseTags| == 1 && baseTags[0].href.Some? && baseTags[0].href.value != ""
    ensures r.Url? && baseTags[0].href.value == "/" ==> r.url == baseSiteUrl
    ensures r.Url? && baseTags[0].href.value != "/" ==> r.url == baseTags[0].href.value
  {
    if |baseTags| != 1 then Undefined
    else
      var href := baseTags[0].href;
      if href.None? || href.value == "" then Null
      else if href.value == "/" then Url(baseSiteUrl)
      else Url(href.value)
  }

  // ---------------------------------------------------------------------------
  // createNodeList: Array.prototype.slice semantics
  // ---------------------------------------------------------------------------

  /** A relative index of `slice`, resolved against a length: negative counts from the end, then clamped. */
  function ResolveIndex(i: int, len: nat): (r: nat)
    ensures r <= len
    ensures 0 <= i <= len ==> r == i
    ensures i < 0 && len + i >= 0 ==> r == len + i
    ensures len + i < 0 ==> r == 0
    ensures i > len ==> r == len
  {
    if i < 0 then (if len + i < 0 then 0 else len + i)
    else if i > len then len
    else i
  }

  /** `nodes.slice(start, end)`, an absent bound being `undefined`. */
  function JsSlice<T>(nodes: seq<T>, start: Option<int>, end: Option<int>): (r: seq<T>)
  {
    var lo := if start.None? then 0 else ResolveIndex(start.value, |nodes|);
    var hi := if end.None? then |nodes| else ResolveIndex(end.value, |nodes|);
    if lo < hi then nodes[lo..hi] else []
  }

  /** The slice a node list is built with: none, a single start index, or an array `[start, end]`. */
  datatype SliceArg = NoSlice | Index(start: int) | Bounds(first: Option<int>, second: Option<int>)

  /**
   * createNodeList over a selector's matches. A falsy slice (absent, or the number 0) keeps all
   * matches; a number starts there; an array gives start and end, missing entries being undefined.
   */
  function CreateNodeList<T>(matches: seq<T>, slice: SliceArg): seq<T>
  {
    match slice
    case NoSlice => matches
    case Index(n) => if n == 0 then matches else JsSlice(matches, Some(n), None)
    case Bounds(a, b) => JsSlice(matches, a, b)
  }

  /** A slice is a contiguous run of the matches, no longer than they are. */
  lemma SliceIsContiguous<T>(nodes: seq<T>, start: Option<int>, end: Option<int>)
    ensures exists lo, hi :: 0 <= lo <= hi <= |nodes| && JsSlice(nodes, start, end) == nodes[lo..hi]
  {
    var lo := if start.None? then 0 else ResolveIndex(start.value, |nodes|);
    var hi := if end.None? then |nodes| else ResolveIndex(end.value, |nodes|);
    if lo < hi {
      assert JsSlice(nodes, start, end) == nodes[lo..hi];
    } else {
      assert JsSlice(nodes, start, end) == nodes[lo..lo];
    }
  }

  /** Slicing a list with in-range bounds takes exactly those positions; a negative start counts from the end. */
  lemma SliceBounds<T>(nodes: seq<T>, start: int, end: int)
    ensures 0 <= start <= end <= |nodes| ==> JsSlice(nodes, Some(start), Some(end)) == nodes[start..end]
    ensures 0 <= start <= |nodes| ==> JsSlice(nodes, Some(start), None) == nodes[start..]
    ensures 0 < -start <= |nodes| ==> JsSlice(nodes, Some(start), None) == nodes[|nodes| + start..]
    ensures start >= |nodes| ==> JsSlice(nodes, Some(start), None) == []
  {
  }

  /** A node list keeps every match when the slice is falsy or an empty array. */
  lemma NodeListKeepsAll<T>(matches: seq<T>)
    ensures CreateNodeList(matches, NoSlice) == matches
    ensures CreateNodeList(matches, Index(0)) == matches
    ensures CreateNodeList(matches, Bounds(None, None)) == matches
  {
  }

  /** A number slice `n` and the array `[n]` select the same nodes. */
  lemma NumberSliceIsArraySlice<T>(matches: seq<T>, n: int)
    requires n != 0
    ensures CreateNodeList(matches, Index(n)) == CreateNodeList(matches, Bounds(Some(n), None))
  {
  }

  /**
   * A number slice `n` keeps the matches from index n on; a negative n keeps the last -n matches;
   * a start past the end keeps none.
   */
  lemma NumberSliceFrom<T>(matches: seq<T>, n: int)
    ensures 0 <= n <= |matches| ==> CreateNodeList(matches, Index(n)) == matches[n..]
    ensures 0 < -n <= |matches| ==> CreateNodeList(matches, Index(n)) == matches[|matches| + n..]
    ensures n >= |matches| ==> CreateNodeList(matches, Index(n)) == []
  {
  }

  // ---------------------------------------------------------------------------
  // createElementList
  // ---------------------------------------------------------------------------

  /**
   * The condition an element list is filtered with: it sees the node, its index and the whole
   * list, and either answers or throws (a rejected promise counts as a throw).
   */
  type Condition<!T, E> = Option<(T, nat, seq<T>) -> Result<bool, E>>

  /** Whether the condition throws when asked about the node at index `i`. */
  predicate Throws<T, E>(nodes: seq<T>, condition: Condition<T, E>, i: nat)
    requires i < |nodes|
  {
    condition.Some? && condition.value(nodes[i], i, nodes).Failure?
  }

  /** Whether the node at index `i` goes into the element list. */
  predicate Included<T, E>(nodes: seq<T>, condition: Condition<T, E>, i: nat)
    requires i < |nodes|
  {
    condition.None? || condition.value(nodes[i], i, nodes) == Success(true)
  }

  /** The nodes among the first `k` that are included, in list order. */
  function Accepted<T, E>(nodes: seq<T>, condition: Condition<T, E>, k: nat): seq<T>
    requires k <= |nodes|
  {
    if k == 0 then []
    else Accepted(nodes, condition, k - 1) + (if Included(nodes, condition, k - 1) then [nodes[k - 1]] else [])
  }

  /** The indices among the first `k` whose node is included, in increasing order. */
  function AcceptedIndices<T, E>(nodes: seq<T>, condition: Condition<T, E>, k: nat): seq<nat>
    requires k <= |nodes|
  {
    if k == 0 then []
    else AcceptedIndices(nodes, condition, k - 1) + (if Included(nodes, condition, k - 1) then [k - 1] else [])
  }

  /**
   * The first `k` nodes filtered one after another: the accepted nodes, or the value the
   * condition throws for the first node it throws on, after which no node is asked.
   */
  function Filtered<T, E>(nodes: seq<T>, condition: Condition<T, E>, k: nat): Result<seq<T>, E>
    requires k <= |nodes|
  {
    if k == 0 then Success([])
    else match Filtered(nodes, condition, k - 1)
      case Failure(e) => Failure(e)
      case Success(r) =>
        if Throws(nodes, condition, k - 1) then Failure(condition.value(nodes[k - 1], k - 1, nodes).error)
        else Success(r + (if Included(nodes, condition, k - 1) then [nodes[k - 1]] else []))
  }

  /**
   * Filtering throws exactly when the condition throws on one of the nodes; it then throws what
   * the condition threw on the first such node. Otherwise it gives the accepted nodes.
   */
  lemma {:induction false} FilteredThrowsFirst<T, E>(nodes: seq<T>, condition: Condition<T, E>, k: nat)
    requires k <= |nodes|
    ensures Filtered(nodes, condition, k).Failure? <==> exists i :: 0 <= i < k && Throws(nodes, condition, i)
    ensures Filtered(nodes, condition, k).Failure? ==>
      exists i :: 0 <= i < k && Throws(nodes, condition, i)
        && Filtered(nodes, condition, k).error == condition.value(nodes[i], i, nodes).error
        && forall j :: 0 <= j < i ==> !Throws(nodes, condition, j)
    ensures Filtered(nodes, condition, k).Success? ==> Filtered(nodes, condition, k).value == Accepted(nodes, condition, k)
  {
    if k > 0 {
      FilteredThrowsFirst(nodes, condition, k - 1);
      if Filtered(nodes, condition, k - 1).Success? && Throws(nodes, condition, k - 1) {
        assert forall j :: 0 <= j < k - 1 ==> !Throws(nodes, condition, j);
      }
    }
  }

  /** Once filtering has thrown, the later nodes change nothing: it throws the same value. */
  lemma {:induction false} FilteredStaysThrown<T, E>(nodes: seq<T>, condition: Condition<T, E>, j: nat, k: nat)
    requires j <= k <= |nodes| && Filtered(nodes, condition, j).Failure?
    ensures Filtered(nodes, condition, k) == Filtered(nodes, condition, j)
    decreases k - j
  {
    if j < k {
      FilteredStaysThrown(nodes, condition, j + 1, k);
    }
  }

  /**
   * The element list is the subsequence of the node list picked out by the included indices:
   * those indices increase strictly, and an index is among them exactly when its node is included.
   */
  lemma {:induction false} AcceptedIsFilter<T, E>(nodes: seq<T>, condition: Condition<T, E>, k: nat)
    requires k <= |nodes|
    ensures var r := Accepted(nodes, condition, k); var idx := AcceptedIndices(nodes, condition, k);
      && |r| == |idx|
      && (forall j :: 0 <= j < |idx| ==> idx[j] < k && r[j] == nodes[idx[j]])
      && (forall j, j' :: 0 <= j < j' < |idx| ==> idx[j] < idx[j'])
      && (forall i :: 0 <= i < k ==> (i in idx <==> Included(nodes, condition, i)))
  {
    if k > 0 {
      AcceptedIsFilter(nodes, condition, k - 1);
      var idx := AcceptedIndices(nodes, condition, k);
      var before := AcceptedIndices(nodes, condition, k - 1);
      forall i | 0 <= i < k
        ensures i in idx <==> Included(nodes, condition, i)
      {
        if i < k - 1 {
          assert i in idx <==> i in before;
        }
      }
    }
  }

  /** Without a condition every node is in the element list, in order. */
  lemma {:induction false} NoConditionKeepsAll<T, E>(nodes: seq<T>, k: nat)
    requires k <= |nodes|
    ensures Filtered<T, E>(nodes, None, k) == Success(nodes[..k])
  {
    if k > 0 {
      NoConditionKeepsAll<T, E>(nodes, k - 1);
      assert nodes[..k] == nodes[..k - 1] + [nodes[k - 1]];
    }
  }

  /**
   * createElementList: the selector's matches, sliced, then the nodes the condition accepts,
   * each asked with its index and the whole sliced list; the returned promise rejects with the
   * first value the condition throws, and no later node is asked.
   */
  method CreateElementList<T, E>(matches: seq<T>, slice: SliceArg, condition: Condition<T, E>)
    returns (elementList: Result<seq<T>, E>)
    ensures var nodeList := CreateNodeList(matches, slice);
      elementList == Filtered(nodeList, condition, |nodeList|)
  {
    var nodeList := CreateNodeList(matches, slice);
    var accepted := [];
    var index := 0;
    while index < |nodeList|
      invariant 0 <= index <= |nodeList|
      invariant Filtered(nodeList, condition, index) == Success(accepted)
    {
      var node := nodeList[index];
      ghost var before := accepted;
      if condition.Some? {
        var shouldBeIncluded := condition.value(node, index, nodeList);
        if shouldBeIncluded.Failure? {
          FilteredStaysThrown(nodeList, condition, index + 1, |nodeList|);
          return Failure(shouldBeIncluded.error);
        }
        assert Included(nodeList, condition, index) <==> shouldBeIncluded.value;
        if shouldBeIncluded.value {
          accepted := accepted + [node];
        }
      } else {
        accepted := accepted + [node];
      }
      assert accepted == before + (if Included(nodeList, condition, index) then [node] else []);
      index := index + 1;
    }
    elementList := Success(accepted);
  }

  // ---------------------------------------------------------------------------
  // getNodeContent: String.prototype.trim
  // ---------------------------------------------------------------------------

  /** The characters `String.prototype.trim` strips: ECMAScript WhiteSpace and LineTerminator. */
  predicate IsTrimmable(c: char)
  {
    || c == '\U{0009}' || c == '\U{000A}' || c == '\U{000B}' || c == '\U{000C}' || c == '\U{000D}'
    || c == '\U{0020}' || c == '\U{00A0}' || c == '\U{1680}'
    || ('\U{2000}' <= c <= '\U{200A}')
    || c == '\U{2028}' || c == '\U{2029}' || c == '\U{202F}' || c == '\U{205F}'
    || c == '\U{3000}' || c == '\U{FEFF}'
  }

  /** How many trimmable characters `s` starts with. */
  function LeadingCount(s: string): (n: nat)
    ensures n <= |s|
    ensures forall i :: 0 <= i < n ==> IsTrimmable(s[i])
    ensures n < |s| ==> !IsTrimmable(s[n])
  {
    if s == [] || !IsTrimmable(s[0]) then 0 else 1 + LeadingCount(s[1..])
  }

  /** How many trimmable characters `s` ends with. */
  function TrailingCount(s: string): (n: nat)
    ensures n <= |s|
    ensures forall i :: |s| - n <= i < |s| ==> IsTrimmable(s[i])
    ensures n < |s| ==> !IsTrimmable(s[|s| - n - 1])
  {
    if s == [] || !IsTrimmable(s[|s| - 1]) then 0 else 1 + TrailingCount(s[..|s| - 1])
  }

  /**
   * `s.trim()`: the infix of `s` left after removing the trimmable characters at both ends; what
   * is removed is all trimmable, and what is left neither starts nor ends with one.
   */
  function Trim(s: string): (t: string)
    ensures exists lo, hi ::
      && 0 <= lo <= hi <= |s| && t == s[lo..hi]
      && (forall i :: 0 <= i < lo ==> IsTrimmable(s[i]))
      && (forall i :: hi <= i < |s| ==> IsTrimmable(s[i]))
    ensures t != [] ==> !IsTrimmable(t[0]) && !IsTrimmable(t[|t| - 1])
  {
    var lo := LeadingCount(s);
    var rest := s[lo..];
    var hi := lo + |rest| - TrailingCount(rest);
    assert rest[..|rest| - TrailingCount(rest)] == s[lo..hi];
    s[lo..hi]
  }

  /** Trimming twice is trimming once. */
  lemma TrimIdempotent(s: string)
    ensures Trim(Trim(s)) == Trim(s)
  {
    var t := Trim(s);
    if t != [] {
      assert LeadingCount(t) == 0;
      assert TrailingCount(t) == 0;
      assert t[0..|t|] == t;
    }
  }

  /** A string with nothing to trim at either end is left as it is. */
  lemma TrimKeepsClean(s: string)
    requires s != [] ==> !IsTrimmable(s[0]) && !IsTrimmable(s[|s| - 1])
    ensures Trim(s) == s
  {
    if s != [] {
      assert LeadingCount(s) == 0;
      assert TrailingCount(s) == 0;
      assert s[0..|s|] == s;
    }
  }

  /** A matched element, as far as getNodeContent reads it: its text and its inner html. */
  datatype Elem = Elem(text: string, html: string)

  /** The text of an element, trimmed when asked to. */
  function NodeText(elem: Elem, shouldTrim: bool): string
  {
    if shouldTrim then Trim(elem.text) else elem.text
  }

  /**
   * getNodeContent: the inner html for content type "html", and the text (trimmed when
   * `shouldTrim` is truthy) for "text", for no content type, and for any other content type.
   */
  function GetNodeContent(elem: Elem, contentType: Option<string>, shouldTrim: bool): (r: string)
    ensures contentType == Some("html") ==> r == elem.html
    ensures contentType != Some("html") && !shouldTrim ==> r == elem.text
    ensures contentType != Some("html") && shouldTrim ==>
      && (exists lo, hi ::
            && 0 <= lo <= hi <= |elem.text| && r == elem.text[lo..hi]
            && (forall i :: 0 <= i < lo ==> IsTrimmable(elem.text[i]))
            && (forall i :: hi <= i < |elem.text| ==> IsTrimmable(elem.text[i])))
      && (r != [] ==> !IsTrimmable(r[0]) && !IsTrimmable(r[|r| - 1]))
  {
    match contentType
    case Some(t) =>
      if t == "text" then NodeText(elem, shouldTrim)
      else if t == "html" then elem.html
      else NodeText(elem, shouldTrim)
    case None => NodeText(elem, shouldTrim)
  }

  /** An unknown content type reads like "text", and so does none at all. */
  lemma ContentTypeDefaultsToText(elem: Elem, contentType: string, shouldTrim: bool)
    requires contentType != "html"
    ensures GetNodeContent(elem, Some(contentType), shouldTrim) == GetNodeContent(elem, Some("text"), shouldTrim)
    ensures GetNodeContent(elem, None, shouldTrim) == GetNodeContent(elem, Some("text"), shouldTrim)
  {
  }
}

=== FILE: crawl.dfy ===
/**
 * The objects of a crawl and the state they change in place: the run context (Scraper.js), the
 * composite operation nodes (OpenUrls.js with CompositeInjectMixin.js and the counters of
 * HttpOperation.js), the page helper each node owns (PageHelper.js) and the helper's
 * process-wide statics. Every worker pool is run sequentially, one url after the other.
 */
module Crawl {
  import opened Wrappers
  import opened JsValues
  import opened Records
  import opened ScraperConfig
  import opened HttpPolicy
  import opened PageSpec

  const RootExpectedMessage := "Scraper.scrape() expects a Root object as an argument!"
  const UrlsMissingMessage := "OpenUrls operation must be provided with a list of URLs."
  const RootLogFileName := "log"
  const FinalErrorsFileName := "finalErrors"
  const OverallFilesPrefix := "Overall files:  "

  /** What a log file holds: a node's records, or the run's failed-iteration descriptions. */
  datatype LogData = NodeData(records: seq<Iteration>) | FailedIterations(errors: seq<string>)

  /** One exported log file: its name (without the `.json` extension) and its contents. */
  datatype LogFile = LogFile(fileName: string, data: LogData)

  /** What `complete` produces: the log files (when a log path is set) and its two log lines. */
  datatype Completion = Completion(logs: Option<seq<LogFile>>, summary: string, filesLine: string)

  /** A string option is truthy when it is set and not empty. */
  predicate Truthy(s: Option<string>)
  {
    s.Some? && s.value != ""
  }

  /** The nodes of a possibly absent tree. */
  ghost function NodesOf(root: OpenUrls?): set<OpenUrls>
    reads root
  {
    if root == null then {} else root.Repr
  }

  /** A possibly absent node, as a set. */
  ghost function Only(root: OpenUrls?): set<OpenUrls>
  {
    if root == null then {} else {root}
  }

  /**
   * The statics of PageHelper, shared by every helper of the process. `lastResponse` starts as
   * the empty string (None here). The class declares `lasResponseUrl`, but processOneIteration
   * writes `lastResponseUrl`, a property it never declared (None until first written).
   */
  class PageCache {
    var lastResponse: Option<Page>
    var lastResponseUrl: Option<string>
    const lasResponseUrl: string := ""

    constructor ()
      ensures Contents() == InitialCache
    {
      lastResponse := None;
      lastResponseUrl := None;
    }

    function Contents(): Cache
      reads this
    {
      Cache(lastResponse, lastResponseUrl)
    }

    /** The statics as another page helper leaves them. */
    method Store(c: Cache)
      modifies this
      ensures Contents() == c
    {
      lastResponse := c.lastResponse;
      lastResponseUrl := c.lastResponseUrl;
    }
  }

  /** The run context: its configuration, its counters and lists, the request spacer and the first-run flag. */
  class Scraper {
    const config: Config
    var state: RunState<OpenUrls>
    /** How many delays have been chained onto the request spacer so far. */
    var requestSpacer: nat
    var isFirstRun: bool

    constructor FromConfig(config: Config)
      ensures this.config == config && state == InitialState() && requestSpacer == 0 && isFirstRun
    {
      this.config := config;
      state := InitialState();
      requestSpacer := 0;
      isFirstRun := true;
    }

    /**
     * `new Scraper(globalConfig)`: the run context with the built configuration and a fresh run
     * state, or the value the constructor throws.
     */
    static method Create(globalConfig: GlobalConfigArg) returns (r: Result<Scraper, string>)
      ensures r.Success? <==> BuildConfig(globalConfig).Success?
      ensures r.Failure? ==> r.error == BuildConfig(globalConfig).error
      ensures r.Success? ==>
        && fresh(r.value)
        && r.value.config == BuildConfig(globalConfig).value
        && r.value.state == InitialState()
        && r.value.requestSpacer == 0
        && r.value.isFirstRun
    {
      var built := BuildConfig(globalConfig);
      if built.Failure? {
        return Failure(built.error);
      }
      var scraper := new Scraper.FromConfig(built.value);
      r := Success(scraper);
    }

    /** registerOperation: the node goes at the end of the registry; nothing else changes. */
    method RegisterOperation(operation: OpenUrls)
      modifies this`state
      ensures state == old(state).(registeredOperations := old(state.registeredOperations) + [operation])
    {
      state := state.(registeredOperations := state.registeredOperations + [operation]);
    }

    /** reportFailedScrapingAction: the description goes at the end of the failed list; nothing else changes. */
    method ReportFailedScrapingAction(errorString: string)
      modifies this`state
      ensures state == old(state).(failedScrapingIterations := old(state.failedScrapingIterations) + [errorString])
      ensures AreThereRepeatableErrors(state)
    {
      state := state.(failedScrapingIterations := state.failedScrapingIterations + [errorString]);
    }

    /**
     * The run context after the node's children scraped a page: the nested nodes share this
     * scraper, so their failures go at the end of the failed list, in order, and each request they
     * issued is counted and takes a place behind the spacer.
     */
    method TakeNestedWork(failed: seq<string>, requests: nat)
      modifies this`state, this`requestSpacer
      ensures state == old(state).(failedScrapingIterations := old(state.failedScrapingIterations) + failed,
                                   numRequests := old(state.numRequests) + requests)
      ensures requestSpacer == old(requestSpacer) + requests
    {
      state := state.(failedScrapingIterations := state.failedScrapingIterations + failed,
                      numRequests := state.numRequests + requests);
      requestSpacer := requestSpacer + requests;
    }

    /** The file a registered node's log goes to: "log" for a Root, else the node's configured name. */
    static function LogFileName(operation: OpenUrls): string
    {
      if operation.kind == Root then RootLogFileName else operation.config.name
    }

    /**
     * createLogs: one file per registered node, in registry order, with the node's data, then the
     * failed-iteration list under "finalErrors".
     */
    method CreateLogs() returns (files: seq<LogFile>)
      ensures |files| == |state.registeredOperations| + 1
      ensures forall i :: 0 <= i < |state.registeredOperations| ==>
        files[i] == LogFile(LogFileName(state.registeredOperations[i]), NodeData(state.registeredOperations[i].data))
      ensures files[|state.registeredOperations|] == LogFile(FinalErrorsFileName, FailedIterations(state.failedScrapingIterations))
    {
      var operations := state.registeredOperations;
      files := [];
      var i := 0;
      while i < |operations|
        invariant 0 <= i <= |operations|
        invariant |files| == i
        invariant forall j :: 0 <= j < i ==> files[j] == LogFile(LogFileName(operations[j]), NodeData(operations[j].data))
      {
        var operation := operations[i];
        files := files + [LogFile(LogFileName(operation), NodeData(operation.data))];
        i := i + 1;
      }
      files := files + [LogFile(FinalErrorsFileName, FailedIterations(state.failedScrapingIterations))];
    }

    /**
     * complete: the log files when a log path is configured, the summary of the failed count,
     * and the overall-files line.
     */
    method Complete() returns (c: Completion)
      ensures c.logs.Some? <==> Truthy(config.logPath)
      ensures c.logs.Some? ==>
        && |c.logs.value| == |state.registeredOperations| + 1
        && (forall i :: 0 <= i < |state.registeredOperations| ==>
              c.logs.value[i] == LogFile(LogFileName(state.registeredOperations[i]), NodeData(state.registeredOperations[i].data)))
        && c.logs.value[|state.registeredOperations|] == LogFile(FinalErrorsFileName, FailedIterations(state.failedScrapingIterations))
      ensures c.summary == CompletionSummary(|state.failedScrapingIterations|)
      ensures c.filesLine == OverallFilesPrefix + NatToString(state.downloadedFiles)
    {
      var logs: Option<seq<LogFile>> := None;
      if Truthy(config.logPath) {
        var files := CreateLogs();
        logs := Some(files);
      }
      var summary := if AreThereRepeatableErrors(state) then FailedCountPrefix + NatToString(|state.failedScrapingIterations|)
                     else AllDoneMessage;
      c := Completion(logs, summary, OverallFilesPrefix + NatToString(state.downloadedFiles));
    }

    /**
     * scrape: refuses anything but a Root node before touching anything; otherwise injects this
     * run context into the tree, stops there if injection throws, and else scrapes the root and
     * completes the run.
     */
    method Scrape(root: OpenUrls?, env: Env, shared: PageCache) returns (outcome: Outcome<string>, completion: Option<Completion>)
      requires root != null ==> root.Valid() && (root.pageHelper != null ==> root.pageHelper.operation == root && root.pageHelper.lastResponse.None?)
      modifies this`state, this`requestSpacer, NodesOf(root)`scraper, Only(root)`pageHelper, Only(root)`data,
               Only(root)`errors, shared
      ensures root == null || root.kind != Root ==>
        && outcome == Fail(RootExpectedMessage) && completion.None?
        && state == old(state) && requestSpacer == old(requestSpacer)
        && shared.Contents() == old(shared.Contents())
        && (forall n :: n in NodesOf(root) ==> n.scraper == old(n.scraper))
        && (root != null ==> root.pageHelper == old(root.pageHelper) && root.data == old(root.data) && root.errors == old(root.errors))
      ensures root != null && root.kind == Root ==>
        var injection := root.Inject();
        && root.scraper == this
        && (forall n :: n in injection.registered ==> n.scraper == this)
        && (forall n :: n in root.Repr && n !in injection.registered ==> n.scraper == old(n.scraper))
        && (injection.outcome.Fail? ==>
              && outcome == injection.outcome && completion.None?
              && state == old(state).(registeredOperations := old(state.registeredOperations) + injection.registered)
              && requestSpacer == old(requestSpacer) && shared.Contents() == old(shared.Contents())
              && root.pageHelper == old(root.pageHelper) && root.data == old(root.data) && root.errors == old(root.errors))
        && (injection.outcome.Pass? ==>
              var run := UrlsRun(Ctx(env, config, root.config, None), root.urls.value, root.config.pagination.Some?,
                                 |root.urls.value|, old(shared.Contents()));
              && outcome.Pass?
              && state == old(state).(registeredOperations := old(state.registeredOperations) + root.PreOrder(),
                                      failedScrapingIterations := old(state.failedScrapingIterations) + run.reported,
                                      numRequests := old(state.numRequests) + run.attempts)
              && requestSpacer == old(requestSpacer) + run.attempts
              && root.data == old(root.data) + run.records
              && root.errors == old(root.errors) + run.errors
              && shared.Contents() == run.cache && root.HelperAfter(old(root.pageHelper))
              && completion.Some? && completion.value.summary == CompletionSummary(|state.failedScrapingIterations|))
    {
      if root == null || root.kind != Root {
        return Fail(RootExpectedMessage), None;
      }
      outcome, completion := ScrapeRoot(root, env, shared);
    }

    /** scrape past the guard: injection, then, if it went through, the root scraped and the run completed. */
    method ScrapeRoot(root: OpenUrls, env: Env, shared: PageCache) returns (outcome: Outcome<string>, completion: Option<Completion>)
      requires root.Valid() && (root.pageHelper != null ==> root.pageHelper.operation == root && root.pageHelper.lastResponse.None?)
      modifies this`state, this`requestSpacer, root.Repr`scraper, root`pageHelper, root`data, root`errors, shared
      ensures var injection := root.Inject();
        && root.scraper == this
        && (forall n :: n in injection.registered ==> n.scraper == this)
        && (forall n :: n in root.Repr && n !in injection.registered ==> n.scraper == old(n.scraper))
        && (injection.outcome.Fail? ==>
              && outcome == injection.outcome && completion.None?
              && state == old(state).(registeredOperations := old(state.registeredOperations) + injection.registered)
              && requestSpacer == old(requestSpacer) && shared.Contents() == old(shared.Contents())
              && root.pageHelper == old(root.pageHelper) && root.data == old(root.data) && root.errors == old(root.errors))
        && (injection.outcome.Pass? ==>
              var run := UrlsRun(Ctx(env, config, root.config, None), root.urls.value, root.config.pagination.Some?,
                                 |root.urls.value|, old(shared.Contents()));
              && outcome.Pass?
              && state == old(state).(registeredOperations := old(state.registeredOperations) + root.PreOrder(),
                                      failedScrapingIterations := old(state.failedScrapingIterations) + run.reported,
                                      numRequests := old(state.numRequests) + run.attempts)
              && requestSpacer == old(requestSpacer) + run.attempts
              && root.data == old(root.data) + run.records
              && root.errors == old(root.errors) + run.errors
              && shared.Contents() == run.cache && root.HelperAfter(old(root.pageHelper))
              && completion.Some? && completion.value.summary == CompletionSummary(|state.failedScrapingIterations|))
    {
      outcome := InjectTree(root);
      if outcome.Fail? {
        return outcome, None;
      }
      ghost var injection, order := root.Inject(), root.PreOrder();
      root.InjectInRepr();
      var c := ScrapeAndComplete(root, env, shared);
      assert root.Inject() == injection && root.PreOrder() == order;
      completion := Some(c);
    }

    /** The injected root scraped with this run context, then the run completed. */
    method ScrapeAndComplete(root: OpenUrls, env: Env, shared: PageCache) returns (c: Completion)
      requires root.scraper == this && root.urls.Some?
      requires root.pageHelper != null ==> root.pageHelper.operation == root && root.pageHelper.lastResponse.None?
      modifies this`state, this`requestSpacer, root`pageHelper, root`data, root`errors, shared
      ensures var run := UrlsRun(Ctx(env, config, root.config, None), root.urls.value, root.config.pagination.Some?,
                                 |root.urls.value|, old(shared.Contents()));
        && root.data == old(root.data) + run.records
        && root.errors == old(root.errors) + run.errors
        && state == old(state).(failedScrapingIterations := old(state.failedScrapingIterations) + run.reported,
                                numRequests := old(state.numRequests) + run.attempts)
        && requestSpacer == old(requestSpacer) + run.attempts
        && shared.Contents() == run.cache
        && c.summary == CompletionSummary(|state.failedScrapingIterations|)
      ensures root.HelperAfter(old(root.pageHelper))
    {
      ScrapeTree(root, env, shared);
      c := Complete();
    }

    /**
     * The tree injected with this run context: every node registered in pre-order when injection
     * succeeds, which it does exactly when every node has its urls.
     */
    method InjectTree(root: OpenUrls) returns (outcome: Outcome<string>)
      requires root.Valid()
      modifies root.Repr`scraper, this`state
      ensures root.Valid() && root.scraper == this
      ensures outcome == root.Inject().outcome
      ensures state == old(state).(registeredOperations := old(state.registeredOperations) + root.Inject().registered)
      ensures outcome.Pass? ==> root.Inject().registered == root.PreOrder() && root.urls.Some?
      ensures forall n :: n in root.Inject().registered ==> n.scraper == this
      ensures forall n :: n in root.Repr && n !in root.Inject().registered ==> n.scraper == old(n.scraper)
    {
      outcome := root.InjectScraper(this);
      root.InjectSucceeds();
    }

    /** One pass of indefiniteScrape: the root scraped, then the run completed if no request is left running. */
    method ScrapeOnce(root: OpenUrls, env: Env, shared: PageCache) returns (completion: Option<Completion>)
      requires root.scraper == this && root.urls.Some?
      requires root.pageHelper != null ==> root.pageHelper.operation == root && root.pageHelper.lastResponse.None?
      modifies this`state, this`requestSpacer, root`pageHelper, root`data, root`errors, shared
      ensures var run := UrlsRun(Ctx(env, config, root.config, None), root.urls.value, root.config.pagination.Some?,
                                 |root.urls.value|, old(shared.Contents()));
        && root.data == old(root.data) + run.records
        && root.errors == old(root.errors) + run.errors
        && state == old(state).(failedScrapingIterations := old(state.failedScrapingIterations) + run.reported,
                                numRequests := old(state.numRequests) + run.attempts)
        && requestSpacer == old(requestSpacer) + run.attempts
        && shared.Contents() == run.cache
      ensures root.HelperAfter(old(root.pageHelper))
      ensures state.currentlyRunning == old(state.currentlyRunning)
      ensures completion.Some? <==> state.currentlyRunning == 0
      ensures completion.Some? ==> completion.value.summary == CompletionSummary(|state.failedScrapingIterations|)
    {
      ScrapeTree(root, env, shared);
      completion := None;
      if state.currentlyRunning == 0 {
        var c := Complete();
        completion := Some(c);
      }
    }

    /** The root node scraped with this run context: its records, errors and requests land in the run's state. */
    method ScrapeTree(root: OpenUrls, env: Env, shared: PageCache)
      requires root.scraper == this && root.urls.Some?
      requires root.pageHelper != null ==> root.pageHelper.operation == root && root.pageHelper.lastResponse.None?
      modifies this`state, this`requestSpacer, root`pageHelper, root`data, root`errors, shared
      ensures var run := UrlsRun(Ctx(env, config, root.config, None), root.urls.value, root.config.pagination.Some?,
                                 |root.urls.value|, old(shared.Contents()));
        && root.data == old(root.data) + run.records
        && root.errors == old(root.errors) + run.errors
        && state == old(state).(failedScrapingIterations := old(state.failedScrapingIterations) + run.reported,
                                numRequests := old(state.numRequests) + run.attempts)
        && requestSpacer == old(requestSpacer) + run.attempts
        && shared.Contents() == run.cache
      ensures root.HelperAfter(old(root.pageHelper))
    {
      var _, _, _ := root.Scrape(env, shared);
    }

    /**
     * indefiniteScrape: the same guard and injection as scrape (a throw from either leaves the
     * first-run flag as it was); then the root is scraped as by scrape, the first-run flag is
     * returned, the run completes only if no request is left running, and the flag is cleared.
     */
    method IndefiniteScrape(root: OpenUrls?, env: Env, shared: PageCache)
      returns (outcome: Outcome<string>, firstRun: bool, completion: Option<Completion>)
      requires root != null ==> root.Valid() && (root.pageHelper != null ==> root.pageHelper.operation == root && root.pageHelper.lastResponse.None?)
      modifies this`state, this`requestSpacer, this`isFirstRun, NodesOf(root)`scraper, Only(root)`pageHelper,
               Only(root)`data, Only(root)`errors, shared
      ensures firstRun == old(isFirstRun)
      ensures outcome.Fail? ==>
        && isFirstRun == old(isFirstRun) && completion.None?
        && requestSpacer == old(requestSpacer) && shared.Contents() == old(shared.Contents())
        && (root != null ==> root.pageHelper == old(root.pageHelper) && root.data == old(root.data) && root.errors == old(root.errors))
      ensures root == null || root.kind != Root ==>
        && outcome == Fail(RootExpectedMessage) && state == old(state)
        && (forall n :: n in NodesOf(root) ==> n.scraper == old(n.scraper))
      ensures root != null && root.kind == Root ==>
        && root.scraper == this
        && (forall n :: n in root.Inject().registered ==> n.scraper == this)
        && (forall n :: n in root.Repr && n !in root.Inject().registered ==> n.scraper == old(n.scraper))
        && (root.Inject().outcome.Fail? ==>
              state == old(state).(registeredOperations := old(state.registeredOperations) + root.Inject().registered))
      ensures outcome.Pass? <==> root != null && root.kind == Root && root.Inject().outcome.Pass?
      ensures outcome.Pass? ==>
        && root != null && root.urls.Some?
        && var run := UrlsRun(Ctx(env, config, root.config, None), root.urls.value, root.config.pagination.Some?,
                              |root.urls.value|, old(shared.Contents()));
        && state == old(state).(registeredOperations := old(state.registeredOperations) + root.PreOrder(),
                                failedScrapingIterations := old(state.failedScrapingIterations) + run.reported,
                                numRequests := old(state.numRequests) + run.attempts)
        && requestSpacer == old(requestSpacer) + run.attempts
        && root.data == old(root.data) + run.records
        && root.errors == old(root.errors) + run.errors
        && shared.Contents() == run.cache && root.HelperAfter(old(root.pageHelper))
        && !isFirstRun
        && state.currentlyRunning == old(state.currentlyRunning)
        && (completion.Some? <==> state.currentlyRunning == 0)
        && (completion.Some? ==> completion.value.summary == CompletionSummary(|state.failedScrapingIterations|))
    {
      firstRun := isFirstRun;
      if root == null || root.kind != Root {
        return Fail(RootExpectedMessage), firstRun, None;
      }
      outcome, completion := ScrapeRootOnce(root, env, shared);
      if outcome.Pass? {
        isFirstRun := false;
      }
    }

    /** indefiniteScrape past the guard: injection, then, if it went through, one pass over the root. */
    method ScrapeRootOnce(root: OpenUrls, env: Env, shared: PageCache)
      returns (outcome: Outcome<string>, completion: Option<Completion>)
      requires root.Valid() && (root.pageHelper != null ==> root.pageHelper.operation == root && root.pageHelper.lastResponse.None?)
      modifies this`state, this`requestSpacer, root.Repr`scraper, root`pageHelper, root`data, root`errors, shared
      ensures var injection := root.Inject();
        && root.scraper == this
        && (forall n :: n in injection.registered ==> n.scraper == this)
        && (forall n :: n in root.Repr && n !in injection.registered ==> n.scraper == old(n.scraper))
        && outcome == injection.outcome
        && (injection.outcome.Fail? ==>
              && completion.None?
              && state == old(state).(registeredOperations := old(state.registeredOperations) + injection.registered)
              && requestSpacer == old(requestSpacer) && shared.Contents() == old(shared.Contents())
              && root.pageHelper == old(root.pageHelper) && root.data == old(root.data) && root.errors == old(root.errors))
        && (injection.outcome.Pass? ==>
              && root.urls.Some?
              && var run := UrlsRun(Ctx(env, config, root.config, None), root.urls.value, root.config.pagination.Some?,
                                    |root.urls.value|, old(shared.Contents()));
              && state == old(state).(registeredOperations := old(state.registeredOperations) + root.PreOrder(),
                                      failedScrapingIterations := old(state.failedScrapingIterations) + run.reported,
                                      numRequests := old(state.numRequests) + run.attempts)
              && requestSpacer == old(requestSpacer) + run.attempts
              && root.data == old(root.data) + run.records
              && root.errors == old(root.errors) + run.errors
              && shared.Contents() == run.cache && root.HelperAfter(old(root.pageHelper))
              && (completion.Some? <==> state.currentlyRunning == 0)
              && (completion.Some? ==> completion.value.summary == CompletionSummary(|state.failedScrapingIterations|)))
    {
      outcome := InjectTree(root);
      if outcome.Fail? {
        return outcome, None;
      }
      ghost var injection, order := root.Inject(), root.PreOrder();
      root.InjectInRepr();
      completion := ScrapeOnce(root, env, shared);
      assert root.Inject() == injection && root.PreOrder() == order;
    }
  }

  /** Regrouping an append, for the lists that grow by one step's worth at a time. */
  lemma AppendAssoc<T>(a: seq<T>, b: seq<T>, c: seq<T>)
    ensures a + b + c == a + (b + c)
  {
  }

  /** The outcome of injecting a run context into a tree: the nodes registered, in order, and what was thrown. */
  datatype Injection = Injection(registered: seq<OpenUrls>, outcome: Outcome<string>)

  /**
   * An operation node. Its kind is its constructor name; its children, run context, page helper,
   * data accumulator and error list change in place. `Repr` and `height` are the ghost footprint
   * and depth of the subtree (children are added before their parent is itself added to a tree).
   */
  class OpenUrls {
    const kind: Kind
    const config: OperationConfig
    /** The urls to open; None when they were not given as a list. */
    const urls: Option<seq<string>>
    var operations: seq<OpenUrls>
    var scraper: Scraper?
    var pageHelper: PageHelper?
    var data: seq<Iteration>
    var errors: seq<string>
    ghost var Repr: set<OpenUrls>
    ghost var height: nat

    /** The subtree is finite and acyclic, and every child's footprint lies inside this one's. */
    ghost predicate Valid()
      reads this`Repr, this`operations, this`height, Repr`Repr, Repr`operations, Repr`height
      decreases height
    {
      && this in Repr
      && forall c :: c in operations ==>
           && c in Repr && c.Repr <= Repr && this !in c.Repr && c.height < height && c.Valid()
    }

    constructor (kind: Kind, urls: Option<seq<string>>, config: OperationConfig)
      ensures this.kind == kind && this.urls == urls && this.config == config
      ensures operations == [] && scraper == null && pageHelper == null && data == [] && errors == []
      ensures Valid() && fresh(Repr) && Repr == {this} && height == 0
    {
      this.kind := kind;
      this.urls := urls;
      this.config := config;
      operations := [];
      scraper := null;
      pageHelper := null;
      data := [];
      errors := [];
      Repr := {this};
      height := 0;
    }

    /**
     * `new OpenUrls(urls, config)`: the HttpOperation constructor first refuses a configured
     * condition hook that is not a function; otherwise the node starts with no children, no
     * run context, no page helper and empty data and errors.
     */
    static method Create<F>(kind: Kind, urls: Option<seq<string>>, config: OperationConfig, condition: HookSlot<F>)
      returns (r: Result<OpenUrls, string>)
      ensures r.Failure? <==> condition.NotAFunction?
      ensures r.Failure? ==> r.error == ConditionMessagePrefix + condition.typeName
      ensures r.Success? ==>
        && fresh(r.value) && r.value.Valid() && fresh(r.value.Repr)
        && r.value.kind == kind && r.value.urls == urls && r.value.config == config
        && r.value.operations == [] && r.value.scraper == null && r.value.pageHelper == null
        && r.value.data == [] && r.value.errors == []
    {
      var checked := ValidateConditionHook(!condition.Unset?, condition);
      if checked.Fail? {
        return Failure(checked.error);
      }
      var node := new OpenUrls(kind, urls, config);
      r := Success(node);
    }

    /** addOperation: the child goes at the end of the children; the subtree grows by the child's. */
    method AddOperation(child: OpenUrls)
      requires Valid() && child.Valid() && this !in child.Repr
      modifies this`operations, this`Repr, this`height
      ensures operations == old(operations) + [child]
      ensures Valid() && Repr == old(Repr) + child.Repr
    {
      operations := operations + [child];
      Repr := Repr + child.Repr;
      if height <= child.height {
        height := child.height + 1;
      }
    }

    /** validateOperationArguments: the urls must have been given as a list. */
    function ValidateOperationArguments(): (r: Outcome<string>)
      ensures r.Pass? <==> urls.Some?
      ensures r.Fail? ==> r.error == UrlsMissingMessage
    {
      if urls.None? then Fail(UrlsMissingMessage) else Pass
    }

    /** The nodes of the subtree in pre-order: the node, then each child's subtree in order. */
    ghost function PreOrder(): seq<OpenUrls>
      requires Valid()
      reads this`Repr, this`operations, this`height, Repr`Repr, Repr`operations, Repr`height
      decreases height, 1
    {
      [this] + ChildrenPreOrder(|operations|)
    }

    ghost function ChildrenPreOrder(k: nat): seq<OpenUrls>
      requires Valid() && k <= |operations|
      reads this`Repr, this`operations, this`height, Repr`Repr, Repr`operations, Repr`height
      decreases height, 0, k
    {
      if k == 0 then [] else ChildrenPreOrder(k - 1) + operations[k - 1].PreOrder()
    }

    /**
     * What injectScraper does to the registry and what it throws: the node registers itself,
     * then its children are injected in order until one throws, and last the node validates
     * its own arguments.
     */
    ghost function Inject(): Injection
      requires Valid()
      reads this`Repr, this`operations, this`height, Repr`Repr, Repr`operations, Repr`height
      decreases height, 1
    {
      var children := InjectChildren(|operations|);
      Injection([this] + children.registered,
                if children.outcome.Fail? then children.outcome else ValidateOperationArguments())
    }

    ghost function InjectChildren(k: nat): Injection
      requires Valid() && k <= |operations|
      reads this`Repr, this`operations, this`height, Repr`Repr, Repr`operations, Repr`height
      decreases height, 0, k
    {
      if k == 0 then Injection([], Pass)
      else
        var before := InjectChildren(k - 1);
        if before.outcome.Fail? then before
        else
          var child := operations[k - 1].Inject();
          Injection(before.registered + child.registered, child.outcome)
    }

    /** Every node of the subtree was given its urls. */
    ghost predicate AllUrlsGiven()
      requires Valid()
      reads this`Repr, this`operations, this`height, Repr`Repr, Repr`operations, Repr`height
    {
      forall n :: n in PreOrder() ==> n.urls.Some?
    }

    /**
     * injectScraper: the node takes the run context, registers itself, injects its children in
     * order (stopping at the first that throws), then validates itself. The registry grows by
     * exactly the nodes injected, each of which now refers to the run context; no other node changes.
     */
    method InjectScraper(s: Scraper) returns (r: Outcome<string>)
      requires Valid()
      modifies Repr`scraper, s`state
      decreases height, 2
      ensures Valid()
      ensures r == Inject().outcome
      ensures s.state == old(s.state).(registeredOperations := old(s.state.registeredOperations) + Inject().registered)
      ensures scraper == s
      ensures forall n :: n in Inject().registered ==> n.scraper == s
      ensures forall n :: n in Repr && old(n.scraper) == s ==> n.scraper == s
      ensures forall n :: n in Repr && n !in Inject().registered ==> n.scraper == old(n.scraper)
    {
      scraper := s;
      s.RegisterOperation(this);
      r := InjectOperations(s);
      AppendAssoc(old(s.state.registeredOperations), [this], InjectChildren(|operations|).registered);
      if r.Pass? {
        r := ValidateOperationArguments();
      }
    }

    /**
     * The first `k` children have been injected into `s`, which was in state `start` before the
     * first of them: its registry grew by the nodes injected, and each of them refers to `s`.
     */
    ghost predicate InjectedUpTo(s: Scraper, start: RunState<OpenUrls>, k: nat)
      reads this, Repr, s
    {
      && Valid() && scraper == s && k <= |operations|
      && s.state == start.(registeredOperations := start.registeredOperations + InjectChildren(k).registered)
      && (ChildrenInjectInRepr(k);
          forall n :: n in InjectChildren(k).registered ==> n.scraper == s)
    }

    /**
     * The node's page helper after a scrape: present, its own, with no own response, and the
     * helper `prev` the node already had, if it had one.
     */
    ghost predicate HelperAfter(prev: PageHelper?)
      reads this, pageHelper
    {
      pageHelper != null && pageHelper.operation == this && pageHelper.lastResponse.None?
      && (prev != null ==> pageHelper == prev)
    }

    /** Every node of the subtree outside `registered` still has the run context `contexts` gives it. */
    ghost predicate UntouchedOutside(contexts: map<OpenUrls, Scraper?>, registered: seq<OpenUrls>)
      reads this, Repr
    {
      forall n :: n in Repr && n in contexts && n !in registered ==> n.scraper == contexts[n]
    }

    /** Every node of the subtree that referred to `s` in `contexts` still does. */
    ghost predicate KeepsContext(s: Scraper, contexts: map<OpenUrls, Scraper?>)
      reads this, Repr
    {
      forall n :: n in Repr && n in contexts && contexts[n] == s ==> n.scraper == s
    }

    /** The children of injectScraper, in order, until one throws. */
    method InjectOperations(s: Scraper) returns (r: Outcome<string>)
      requires Valid() && scraper == s
      modifies Repr`scraper, s`state
      decreases height, 1
      ensures InjectedUpTo(s, old(s.state), |operations|)
      ensures r == InjectChildren(|operations|).outcome
      ensures forall n :: n in Repr && old(n.scraper) == s ==> n.scraper == s
      ensures forall n :: n in Repr && n !in InjectChildren(|operations|).registered ==> n.scraper == old(n.scraper)
    {
      ghost var contexts := map n | n in Repr :: n.scraper;
      var i := 0;
      while i < |operations|
        invariant InjectedUpTo(s, old(s.state), i) && InjectChildren(i).outcome.Pass?
        invariant KeepsContext(s, contexts)
        invariant UntouchedOutside(contexts, InjectChildren(i).registered)
      {
        r := InjectChild(i, s, old(s.state), contexts);
        if r.Fail? {
          ChildrenInjectStopped(i + 1, |operations|);
          return;
        }
        i := i + 1;
      }
      r := Pass;
    }

    /** One child of injectScraper: its subtree is injected after the siblings before it. */
    method InjectChild(i: nat, s: Scraper, ghost start: RunState<OpenUrls>, ghost contexts: map<OpenUrls, Scraper?>)
      returns (r: Outcome<string>)
      requires InjectedUpTo(s, start, i) && i < |operations| && InjectChildren(i).outcome.Pass?
      requires KeepsContext(s, contexts) && UntouchedOutside(contexts, InjectChildren(i).registered)
      modifies Repr`scraper, s`state
      decreases height, 0
      ensures InjectedUpTo(s, start, i + 1)
      ensures r == InjectChildren(i + 1).outcome
      ensures KeepsContext(s, contexts) && UntouchedOutside(contexts, InjectChildren(i + 1).registered)
    {
      var child := operations[i];
      ghost var done := InjectChildren(i);
      r := child.InjectScraper(s);
      assert InjectChildren(i) == done;
      AppendAssoc(start.registeredOperations, done.registered, child.Inject().registered);
      ChildrenInjectInRepr(i);
      forall n | n in done.registered
        ensures n.scraper == s
      {
        assert n in Repr;
        assert old(n.scraper) == s;
      }
    }

    /** Every node injected belongs to the subtree. */
    lemma {:induction false} InjectInRepr()
      requires Valid()
      ensures forall n :: n in Inject().registered ==> n in Repr
      decreases height, 1
    {
      ChildrenInjectInRepr(|operations|);
    }

    lemma {:induction false} ChildrenInjectInRepr(k: nat)
      requires Valid() && k <= |operations|
      ensures forall n :: n in InjectChildren(k).registered ==> n in Repr
      decreases height, 0, k
    {
      if k > 0 {
        ChildrenInjectInRepr(k - 1);
        if InjectChildren(k - 1).outcome.Pass? {
          operations[k - 1].InjectInRepr();
        }
      }
    }

    /** Once a child has thrown, the later children are not injected. */
    lemma {:induction false} ChildrenInjectStopped(j: nat, k: nat)
      requires Valid() && j <= k <= |operations| && InjectChildren(j).outcome.Fail?
      ensures InjectChildren(k) == InjectChildren(j)
      decreases k
    {
      if k > j {
        ChildrenInjectStopped(j, k - 1);
      }
    }

    /** Injection succeeds exactly when every node of the subtree has its urls, and then registers the whole subtree in pre-order. */
    lemma {:induction false} InjectSucceeds()
      requires Valid()
      ensures Inject().outcome.Pass? <==> AllUrlsGiven()
      ensures Inject().outcome.Pass? ==> Inject().registered == PreOrder()
      ensures Inject().outcome.Fail? ==> Inject().outcome.error == UrlsMissingMessage
      decreases height, 1
    {
      ChildrenInjectSucceed(|operations|);
    }

    lemma {:induction false} ChildrenInjectSucceed(k: nat)
      requires Valid() && k <= |operations|
      ensures InjectChildren(k).outcome.Pass? <==> forall n :: n in ChildrenPreOrder(k) ==> n.urls.Some?
      ensures InjectChildren(k).outcome.Pass? ==> InjectChildren(k).registered == ChildrenPreOrder(k)
      ensures InjectChildren(k).outcome.Fail? ==> InjectChildren(k).outcome.error == UrlsMissingMessage
      decreases height, 0, k
    {
      if k > 0 {
        ChildrenInjectSucceed(k - 1);
        var child := operations[k - 1];
        child.InjectSucceeds();
      }
    }

    /** Whatever happens, the nodes registered are a prefix of the subtree's pre-order, starting with the node itself. */
    lemma {:induction false} InjectIsPrefix()
      requires Valid()
      ensures Inject().registered <= PreOrder()
      ensures Inject().registered[0] == this
      decreases height, 1
    {
      ChildrenInjectIsPrefix(|operations|);
    }

    lemma {:induction false} ChildrenInjectIsPrefix(k: nat)
      requires Valid() && k <= |operations|
      ensures InjectChildren(k).registered <= ChildrenPreOrder(k)
      ensures InjectChildren(k).outcome.Fail? ==> k > 0
      decreases height, 0, k
    {
      if k > 0 {
        ChildrenInjectIsPrefix(k - 1);
        var before := InjectChildren(k - 1);
        if before.outcome.Pass? {
          ChildrenInjectSucceed(k - 1);
          operations[k - 1].InjectIsPrefix();
        }
      }
    }

    /**
     * beforePromiseFactory: one more request running and one more issued, after taking the next
     * slot on the request spacer.
     */
    method BeforePromiseFactory() returns (slot: nat)
      requires scraper != null
      modifies scraper`state, scraper`requestSpacer
      ensures scraper.state == old(scraper.state).(currentlyRunning := old(scraper.state.currentlyRunning) + 1,
                                                    numRequests := old(scraper.state.numRequests) + 1)
      ensures slot == old(scraper.requestSpacer) && scraper.requestSpacer == slot + 1
    {
      scraper.state := scraper.state.(currentlyRunning := scraper.state.currentlyRunning + 1);
      slot := CreateDelay();
      scraper.state := scraper.state.(numRequests := scraper.state.numRequests + 1);
    }

    /** afterPromiseFactory: one request fewer running; nothing else changes. */
    method AfterPromiseFactory()
      requires scraper != null
      modifies scraper`state
      ensures scraper.state == old(scraper.state).(currentlyRunning := old(scraper.state.currentlyRunning) - 1)
    {
      scraper.state := scraper.state.(currentlyRunning := scraper.state.currentlyRunning - 1);
    }

    /**
     * createDelay: the caller waits for the spacer's current tail, which it returns as the
     * number of delays queued ahead of it, and appends exactly one delay behind it.
     */
    method CreateDelay() returns (waitsBehind: nat)
      requires scraper != null
      modifies scraper`requestSpacer
      ensures waitsBehind == old(scraper.requestSpacer) && scraper.requestSpacer == waitsBehind + 1
    {
      waitsBehind := scraper.requestSpacer;
      scraper.requestSpacer := scraper.requestSpacer + 1;
    }

    /**
     * scrape: every url, passed through transformHref, is processed by the node's page helper
     * (created on first use) under one pagination flag, getPageData is called with each record,
     * and the records are appended to the node's data and returned tagged with the node's kind
     * and name. The concurrency bound is 3 when a child is itself an OpenUrls node.
     */
    method Scrape(env: Env, shared: PageCache) returns (result: ScrapeResult, limit: int, calls: seq<HookCall>)
      requires scraper != null && urls.Some?
      requires pageHelper != null ==> pageHelper.operation == this && pageHelper.lastResponse.None?
      modifies this`pageHelper, this`data, this`errors, scraper`state, scraper`requestSpacer, shared
      ensures pageHelper != null && pageHelper.operation == this && pageHelper.lastResponse.None?
      ensures old(pageHelper) != null ==> pageHelper == old(pageHelper)
      ensures var run := UrlsRun(Ctx(env, scraper.config, config, None), urls.value, config.pagination.Some?,
                                 |urls.value|, old(shared.Contents()));
        && result == ScrapeResult(KindName(kind), config.name, run.records)
        && calls == run.calls
        && data == old(data) + run.records
        && errors == old(errors) + run.errors
        && scraper.state == old(scraper.state).(
             failedScrapingIterations := old(scraper.state.failedScrapingIterations) + run.reported,
             numRequests := old(scraper.state.numRequests) + run.attempts)
        && scraper.requestSpacer == old(scraper.requestSpacer) + run.attempts
        && shared.Contents() == run.cache
      ensures (exists c :: c in operations && c.kind == Kind.OpenUrls) ==> limit == 3
      ensures !(exists c :: c in operations && c.kind == Kind.OpenUrls) ==> limit == scraper.config.concurrency
    {
      if pageHelper == null {
        pageHelper := new PageHelper(this);
      }
      var hasPendingOperation := exists c :: c in operations && c.kind == Kind.OpenUrls;
      limit := if hasPendingOperation then 3 else scraper.config.concurrency;
      var iterations;
      iterations, calls := ScrapeUrls(urls.value, config.pagination.Some?, env, shared);
      data := data + iterations;
      result := ScrapeResult(KindName(kind), config.name, iterations);
    }

    /** The loop of scrape: each url in turn, the records collected in url order. */
    method ScrapeUrls(refs: seq<string>, shouldPaginate: bool, env: Env, shared: PageCache)
      returns (iterations: seq<Iteration>, calls: seq<HookCall>)
      requires scraper != null && pageHelper != null && pageHelper.operation == this && pageHelper.lastResponse.None?
      modifies this`errors, scraper`state, scraper`requestSpacer, shared
      ensures var run := UrlsRun(Ctx(env, scraper.config, config, None), refs, shouldPaginate, |refs|, old(shared.Contents()));
        && iterations == run.records
        && calls == run.calls
        && errors == old(errors) + run.errors
        && scraper.state == old(scraper.state).(
             failedScrapingIterations := old(scraper.state.failedScrapingIterations) + run.reported,
             numRequests := old(scraper.state.numRequests) + run.attempts)
        && scraper.requestSpacer == old(scraper.requestSpacer) + run.attempts
        && shared.Contents() == run.cache
    {
      ghost var ctx := Ctx(env, scraper.config, config, None);
      ghost var cache0 := shared.Contents();
      iterations := [];
      calls := [];
      var i := 0;
      while i < |refs|
        invariant 0 <= i <= |refs|
        invariant var run := UrlsRun(ctx, refs, shouldPaginate, i, cache0);
          && iterations == run.records
          && calls == run.calls
          && errors == old(errors) + run.errors
          && scraper.state == old(scraper.state).(
               failedScrapingIterations := old(scraper.state.failedScrapingIterations) + run.reported,
               numRequests := old(scraper.state.numRequests) + run.attempts)
          && scraper.requestSpacer == old(scraper.requestSpacer) + run.attempts
          && shared.Contents() == run.cache
      {
        ghost var before := UrlsRun(ctx, refs, shouldPaginate, i, cache0);
        ghost var r := IterationRun(ctx, Transform(config, refs[i]), shouldPaginate, true, before.cache);
        UrlsRunNext(ctx, refs, shouldPaginate, i, cache0);
        var record, recordCalls := ScrapeUrl(Transform(config, refs[i]), shouldPaginate, env, shared, ctx, before.cache);
        assert record == r.record && recordCalls == r.calls + PageDataCalls(config, r.record);
        AppendAssoc(old(errors), before.errors, r.errors);
        AppendAssoc(old(scraper.state.failedScrapingIterations), before.reported, r.reported);
        calls := calls + recordCalls;
        iterations := iterations + [record];
        i := i + 1;
      }
    }

    /** One url of scrape: its href processed by the page helper, then getPageData called with the record. */
    method ScrapeUrl(href: string, shouldPaginate: bool, env: Env, shared: PageCache, ghost ctx: Ctx, ghost cache: Cache)
      returns (record: Iteration, calls: seq<HookCall>)
      requires scraper != null && pageHelper != null && pageHelper.operation == this && pageHelper.lastResponse.None?
      requires ctx == Ctx(env, scraper.config, config, None) && shared.Contents() == cache
      modifies this`errors, scraper`state, scraper`requestSpacer, shared
      ensures var r := IterationRun(ctx, href, shouldPaginate, true, cache);
        && record == r.record && calls == r.calls + PageDataCalls(config, r.record)
        && errors == old(errors) + r.errors
        && scraper.state == old(scraper.state).(
             failedScrapingIterations := old(scraper.state.failedScrapingIterations) + r.reported,
             numRequests := old(scraper.state.numRequests) + r.attempts)
        && scraper.requestSpacer == old(scraper.requestSpacer) + r.attempts
        && shared.Contents() == r.cache
    {
      record, calls := pageHelper.ProcessOneIteration(href, shouldPaginate, true, env, shared);
      if config.getPageData.Some? {
        var _ := config.getPageData.value(record);
        calls := calls + [GetPageData(record)];
      }
    }
  }

  /** The page processor of one node. Its own `lastResponse` field is read but never written. */
  class PageHelper {
    const operation: OpenUrls
    var lastResponse: Option<Page>

    constructor (operation: OpenUrls)
      ensures this.operation == operation && lastResponse.None?
    {
      this.operation := operation;
      lastResponse := None;
    }

    /** What the helper's fetches and hooks depend on. */
    function Context(env: Env): Ctx
      requires operation.scraper != null
      reads this`lastResponse, operation`scraper
    {
      Ctx(env, operation.scraper.config, operation.config, lastResponse)
    }

    /**
     * getPage's promise factory: between beforePromiseFactory and afterPromiseFactory (the latter
     * in `finally`, so also when the attempt throws) it takes the helper's own lastResponse or
     * else requests the page, strips style and script tags if configured, and calls getPageHtml.
     */
    method PromiseFactory(href: string, env: Env, k: nat) returns (a: Attempt<Page, HookCall>)
      requires operation.scraper != null
      modifies operation.scraper`state, operation.scraper`requestSpacer
      ensures a == FetchAttempt(Context(env), href, k)
      ensures operation.scraper.state == old(operation.scraper.state).(numRequests := old(operation.scraper.state.numRequests) + 1)
      ensures operation.scraper.requestSpacer == old(operation.scraper.requestSpacer) + 1
    {
      var _ := operation.BeforePromiseFactory();
      var resp: Result<Page, Thrown>;
      if lastResponse.None? {
        resp := env.request(href, k);
        if resp.Success? && operation.scraper.config.removeStyleAndScriptTags {
          resp := Success(resp.value.(data := env.stripTags(resp.value.data)));
        }
      } else {
        resp := Success(lastResponse.value);
      }
      var hookCalls: seq<HookCall> := [];
      if resp.Success? && operation.config.getPageHtml.Some? {
        var page := resp.value;
        hookCalls := [GetPageHtml(page.data, page.url)];
        var hooked := operation.config.getPageHtml.value(page.data, page.url);
        if hooked.Threw? {
          resp := Failure(Thrown(None, hooked.value));
        }
      }
      operation.AfterPromiseFactory();
      a := Attempt(resp, hookCalls);
    }

    /**
     * getPage: the promise factory under the retry loop, with maxRetries + 1 attempts at most,
     * no retry for a skip code, and emitError (getException) between attempts. Every attempt is
     * one more request issued and one more spacer slot; the running count ends where it began.
     */
    method GetPage(href: string, env: Env) returns (result: Result<Page, Thrown>, calls: seq<HookCall>)
      requires operation.scraper != null
      modifies operation.scraper`state, operation.scraper`requestSpacer
      ensures var f := Fetch(Context(env), href);
        && result == f.result && calls == f.calls
        && operation.scraper.state == old(operation.scraper.state).(numRequests := old(operation.scraper.state.numRequests) + f.attempts)
        && operation.scraper.requestSpacer == old(operation.scraper.requestSpacer) + f.attempts
    {
      result, calls := RepeatPromiseUntilResolved(href, env, 1, Context(env));
    }

    /**
     * The retry loop from attempt `k` on: the attempt runs; a success, a skip code (shouldStop) or
     * attempt number maxRetries + 1 ends the loop; otherwise onError emits the error to
     * getException and the next attempt follows.
     */
    method RepeatPromiseUntilResolved(href: string, env: Env, k: nat, ghost ctx: Ctx)
      returns (result: Result<Page, Thrown>, calls: seq<HookCall>)
      requires k >= 1 && operation.scraper != null && ctx == Context(env)
      modifies operation.scraper`state, operation.scraper`requestSpacer
      decreases if MaxAttempts(ctx.config.maxRetries) > k then MaxAttempts(ctx.config.maxRetries) - k else 0
      ensures var run := RetryFrom(AttemptOf(ctx, href), OnErrorOf(ctx), MaxAttempts(ctx.config.maxRetries),
                                   ctx.config.errorCodesToSkip, k);
        && result == run.result && calls == run.calls
        && operation.scraper.state == old(operation.scraper.state).(
             numRequests := old(operation.scraper.state.numRequests) + (run.attempts - k + 1))
        && operation.scraper.requestSpacer == old(operation.scraper.requestSpacer) + (run.attempts - k + 1)
    {
      var maxAttempts := MaxAttempts(operation.scraper.config.maxRetries);
      var skip := operation.scraper.config.errorCodesToSkip;
      var a := PromiseFactory(href, env, k);
      if a.result.Success? || ShouldStop(skip, a.result.error) || k >= maxAttempts {
        FetchStops(ctx, href, k, a);
        return a.result, a.calls;
      }
      FetchContinues(ctx, href, k, a);
      var emitted := EmitError(operation.config.getException, a.result.error);
      var restCalls;
      result, restCalls := RepeatPromiseUntilResolved(href, env, k + 1, ctx);
      calls := a.calls + emitted + restCalls;
    }

    /** runAfterResponseHooks on the given response. */
    method RunAfterResponseHooks(response: Option<Page>) returns (outcome: Outcome<Value>, calls: seq<HookCall>)
      ensures (outcome, calls) == AfterResponseHooks(operation.config, response)
    {
      calls := [];
      outcome := Pass;
      match operation.config.getPageResponse
      case Unset =>
      case NotAFunction(_) =>
        outcome := Fail(Str(GetPageResponseMessage));
      case Fn(hook) =>
        calls := [GetPageResponse(response)];
        var hooked := hook(response);
        if hooked.Threw? {
          outcome := Fail(hooked.value);
        }
    }

    /**
     * runGetPageObjectHook: when getPageObject is set, the tree is built child by child, each
     * child's data under the key getDictionaryKey picks given the tree so far, and the hook is
     * called with the tree and the address.
     */
    method RunGetPageObjectHook(address: string, dataFromChildren: seq<ScrapeResult>, env: Env)
      returns (outcome: Outcome<Value>, calls: seq<HookCall>)
      ensures (outcome, calls) == PageObjectHook(operation.config, env.dictionaryKey, address, dataFromChildren)
    {
      outcome := Pass;
      calls := [];
      if operation.config.getPageObject.Some? {
        var tree: PageObject := map[];
        var i := 0;
        while i < |dataFromChildren|
          invariant 0 <= i <= |dataFromChildren|
          invariant tree == PageObjectTree(dataFromChildren, env.dictionaryKey, i)
        {
          var child := dataFromChildren[i];
          tree := tree[env.dictionaryKey(child.name, tree) := child.data];
          i := i + 1;
        }
        calls := [GetPageObject(tree, address)];
        var hooked := operation.config.getPageObject.value(tree, address);
        if hooked.Threw? {
          outcome := Fail(hooked.value);
        }
      }
    }

    /**
     * processOneIteration: a paginated address is handed to paginate. Otherwise, on a first run,
     * the url is noted and the page fetched into the shared last response, and the validator may
     * abort; then the after-response hook, the children and the page-object hook run on the
     * shared last response. Anything thrown on the way is recorded on the record, on the node's
     * errors and on the run's failed list, and the record is returned all the same.
     */
    method ProcessOneIteration(href: string, shouldPaginate: bool, isFirstRun: bool, env: Env, shared: PageCache)
      returns (record: Iteration, calls: seq<HookCall>)
      requires operation.scraper != null
      modifies operation`errors, operation.scraper`state, operation.scraper`requestSpacer, shared
      ensures var r := IterationRun(Context(env), href, shouldPaginate, isFirstRun, old(shared.Contents()));
        && record == r.record && calls == r.calls
        && operation.errors == old(operation.errors) + r.errors
        && operation.scraper.state == old(operation.scraper.state).(
             failedScrapingIterations := old(operation.scraper.state.failedScrapingIterations) + r.reported,
             numRequests := old(operation.scraper.state.numRequests) + r.attempts)
        && operation.scraper.requestSpacer == old(operation.scraper.requestSpacer) + r.attempts
        && shared.Contents() == r.cache
    {
      if shouldPaginate {
        record, calls := Paginate(href, env, shared);
      } else {
        record, calls := ProcessPage(href, isFirstRun, env, shared);
      }
    }

    /** processOneIteration for an address that is not paginated. */
    method ProcessPage(href: string, isFirstRun: bool, env: Env, shared: PageCache)
      returns (record: Iteration, calls: seq<HookCall>)
      requires operation.scraper != null
      modifies operation`errors, operation.scraper`state, operation.scraper`requestSpacer, shared
      ensures var r := PageIteration(Context(env), href, isFirstRun, old(shared.Contents()));
        && record == r.record && calls == r.calls
        && operation.errors == old(operation.errors) + r.errors
        && operation.scraper.state == old(operation.scraper.state).(
             failedScrapingIterations := old(operation.scraper.state.failedScrapingIterations) + r.reported,
             numRequests := old(operation.scraper.state.numRequests) + r.attempts)
        && operation.scraper.requestSpacer == old(operation.scraper.requestSpacer) + r.attempts
        && shared.Contents() == r.cache
    {
      if !isFirstRun {
        record, calls := SettleSteps(href, env, shared);
        return;
      }
      shared.lastResponseUrl := Some(href);
      var fetched;
      fetched, calls := GetPage(href, env);
      if fetched.Failure? {
        record := RecordFailure(href, fetched.error.value);
        return;
      }
      var page := fetched.value;
      shared.lastResponse := Some(page);
      var validator := operation.scraper.config.validatePageFunc;
      if validator.Some? {
        calls := calls + [ValidatePage(page.data)];
        var verdict := validator.value(page.data);
        if verdict.Failure? {
          record := RecordFailure(href, verdict.error);
          return;
        }
        if !verdict.value {
          record := Iteration(href, ChildResults([]), None, None);
          return;
        }
      }
      var settledCalls;
      record, settledCalls := SettleSteps(href, env, shared);
      calls := calls + settledCalls;
    }

    /**
     * The steps after the response: the after-response hook, the children and the page-object
     * hook. Their results become the record's data; the first thing thrown is recorded instead.
     * What the nested nodes report and request reaches the run before the node's own error, and
     * the statics are left as the nested nodes leave them.
     */
    method SettleSteps(href: string, env: Env, shared: PageCache) returns (record: Iteration, calls: seq<HookCall>)
      requires operation.scraper != null
      modifies operation`errors, operation.scraper`state, operation.scraper`requestSpacer, shared
      ensures var h := AfterResponse(Context(env), href, old(shared.Contents()));
        && calls == h.calls
        && shared.Contents() == h.cache
        && operation.scraper.requestSpacer == old(operation.scraper.requestSpacer) + h.requests
        && (h.result.Success? ==>
              && record == Iteration(href, ChildResults(h.result.value), None, None)
              && operation.errors == old(operation.errors)
              && operation.scraper.state == old(operation.scraper.state).(
                   failedScrapingIterations := old(operation.scraper.state.failedScrapingIterations) + h.failed,
                   numRequests := old(operation.scraper.state.numRequests) + h.requests))
        && (h.result.Failure? ==>
              && record == FailedRecord(href, h.result.error)
              && operation.errors == old(operation.errors) + [ErrorText(href, h.result.error)]
              && operation.scraper.state == old(operation.scraper.state).(
                   failedScrapingIterations := old(operation.scraper.state.failedScrapingIterations) + h.failed
                                               + [ErrorText(href, h.result.error)],
                   numRequests := old(operation.scraper.state.numRequests) + h.requests))
    {
      var response := shared.lastResponse;
      var hooked;
      hooked, calls := RunAfterResponseHooks(response);
      if hooked.Fail? {
        record := RecordFailure(href, hooked.error);
        return;
      }
      var context := ChildContext(response, href);
      calls := calls + [ScrapeChildren(context)];
      var children := env.scrapeChildren(context, shared.Contents());
      shared.Store(children.cache);
      operation.scraper.TakeNestedWork(children.failed, children.requests);
      if children.result.Failure? {
        record := RecordFailure(href, children.result.error);
        return;
      }
      var objected, objectCalls := RunGetPageObjectHook(href, children.result.value, env);
      calls := calls + objectCalls;
      if objected.Fail? {
        record := RecordFailure(href, objected.error);
        return;
      }
      record := Iteration(href, ChildResults(children.result.value), None, None);
    }

    /**
     * The catch of processOneIteration: the error string goes on the record (which is marked
     * unsuccessful), on the node's errors and on the run's failed list.
     */
    method RecordFailure(href: string, thrown: Value) returns (record: Iteration)
      requires operation.scraper != null
      modifies operation`errors, operation.scraper`state
      ensures record == FailedRecord(href, thrown)
      ensures operation.errors == old(operation.errors) + [ErrorText(href, thrown)]
      ensures operation.scraper.state == old(operation.scraper.state).(
                failedScrapingIterations := old(operation.scraper.state.failedScrapingIterations) + [ErrorText(href, thrown)])
    {
      var errorString := ErrorText(href, thrown);
      record := Iteration(href, ChildResults([]), Some(errorString), Some(false));
      operation.errors := operation.errors + [errorString];
      operation.scraper.ReportFailedScrapingAction(errorString);
    }

    /**
     * paginate: one record for the address, whose data holds the record of every derived
     * pagination url, in url order, each processed without pagination.
     */
    method Paginate(address: string, env: Env, shared: PageCache) returns (record: Iteration, calls: seq<HookCall>)
      requires operation.scraper != null
      modifies operation`errors, operation.scraper`state, operation.scraper`requestSpacer, shared
      ensures var r := PaginateRun(Context(env), address, old(shared.Contents()));
        && record == r.record && calls == r.calls
        && operation.errors == old(operation.errors) + r.errors
        && operation.scraper.state == old(operation.scraper.state).(
             failedScrapingIterations := old(operation.scraper.state.failedScrapingIterations) + r.reported,
             numRequests := old(operation.scraper.state.numRequests) + r.attempts)
        && operation.scraper.requestSpacer == old(operation.scraper.requestSpacer) + r.attempts
        && shared.Contents() == r.cache
    {
      var paginationUrls := env.paginationUrls(address, operation.config.pagination);
      var dataFromChildren;
      dataFromChildren, calls := ProcessPages(paginationUrls, env, shared);
      record := Iteration(address, PageRecords(dataFromChildren), None, None);
    }

    /** The loop of paginate: each pagination url processed without pagination, records in url order. */
    method ProcessPages(paginationUrls: seq<string>, env: Env, shared: PageCache)
      returns (dataFromChildren: seq<Iteration>, calls: seq<HookCall>)
      requires operation.scraper != null
      modifies operation`errors, operation.scraper`state, operation.scraper`requestSpacer, shared
      ensures var run := PagesRun(Context(env), paginationUrls, |paginationUrls|, old(shared.Contents()));
        && dataFromChildren == run.records && calls == run.calls
        && operation.errors == old(operation.errors) + run.errors
        && operation.scraper.state == old(operation.scraper.state).(
             failedScrapingIterations := old(operation.scraper.state.failedScrapingIterations) + run.reported,
             numRequests := old(operation.scraper.state.numRequests) + run.attempts)
        && operation.scraper.requestSpacer == old(operation.scraper.requestSpacer) + run.attempts
        && shared.Contents() == run.cache
    {
      ghost var ctx := Context(env);
      ghost var cache0 := shared.Contents();
      dataFromChildren := [];
      calls := [];
      var i := 0;
      while i < |paginationUrls|
        invariant 0 <= i <= |paginationUrls|
        invariant var run := PagesRun(ctx, paginationUrls, i, cache0);
          && dataFromChildren == run.records
          && calls == run.calls
          && operation.errors == old(operation.errors) + run.errors
          && operation.scraper.state == old(operation.scraper.state).(
               failedScrapingIterations := old(operation.scraper.state.failedScrapingIterations) + run.reported,
               numRequests := old(operation.scraper.state.numRequests) + run.attempts)
          && operation.scraper.requestSpacer == old(operation.scraper.requestSpacer) + run.attempts
          && shared.Contents() == run.cache
      {
        ghost var before := PagesRun(ctx, paginationUrls, i, cache0);
        ghost var r := PageIteration(ctx, paginationUrls[i], true, before.cache);
        PagesRunNext(ctx, paginationUrls, i, cache0);
        var pageRecord, pageCalls := ProcessPage(paginationUrls[i], true, env, shared);
        assert pageRecord == r.record && pageCalls == r.calls;
        AppendAssoc(old(operation.errors), before.errors, r.errors);
        AppendAssoc(old(operation.scraper.state.failedScrapingIterations), before.reported, r.reported);
        calls := calls + pageCalls;
        dataFromChildren := dataFromChildren + [pageRecord];
        i := i + 1;
      }
    }
  }
}

=== FILE: http_operation.dfy ===
/**
 * The pure part of the retry and pacing layer (HttpOperation.js): the attempt bound, the
 * skip-code test, what is reported between attempts, the condition-hook check, and the
 * contract the retry loop is run under.
 */
module HttpPolicy {
  import opened Wrappers
  import opened JsValues
  import opened Records
  import opened ScraperConfig

  /** "maxRetries" counts retries; the overall number of attempts is one more. */
  function MaxAttempts(maxRetries: int): int
  {
    maxRetries + 1
  }

  /** The code a failure is classified by: the response status if there is one, else the thrown value. */
  function ErrorCode(e: Thrown): Value
  {
    if e.status.Some? then Num(e.status.value) else e.value
  }

  /** shouldStop: the failure's code is one of the skip codes (compared as `includes` does). */
  predicate ShouldStop(errorCodesToSkip: seq<int>, e: Thrown)
  {
    var code := ErrorCode(e);
    code.Num? && code.n in errorCodesToSkip
  }

  lemma ShouldStopCases(errorCodesToSkip: seq<int>, e: Thrown)
    ensures ShouldStop(errorCodesToSkip, e) <==>
      if e.status.Some? then e.status.value in errorCodesToSkip
      else e.value.Num? && e.value.n in errorCodesToSkip
  {
  }

  /** Whatever the user configured, a response with status 404, 403 or 400 is never retried. */
  lemma BuiltInCodesAlwaysStop(conf: GlobalConfigArg, e: Thrown)
    requires BuildConfig(conf).Success?
    requires e.status == Some(404) || e.status == Some(403) || e.status == Some(400)
    ensures ShouldStop(BuildConfig(conf).value.errorCodesToSkip, e)
  {
    SkipCodesPrefixed(conf);
    var codes := BuildConfig(conf).value.errorCodesToSkip;
    assert codes[0] == 404 && codes[1] == 403 && codes[2] == 400;
  }

  /** emitError: getException is invoked with the error exactly when it is configured. */
  function EmitError(getException: Option<Thrown -> HookOutcome>, e: Thrown): (calls: seq<HookCall>)
    ensures getException.Some? ==> calls == [GetException(e)]
    ensures getException.None? ==> calls == []
  {
    if getException.Some? then [GetException(e)] else []
  }

  /** The retry number onError reports after a failure that rpur counted as `retries`. */
  function OnErrorRetryNumber(retries: nat): nat
  {
    retries + 1
  }

  const ConditionMessagePrefix := "\"condition\" hook must receive a function, got: "

  /**
   * The HttpOperation constructor check: an operation that supports a condition hook refuses a
   * configured (truthy) `condition` that is not a function.
   */
  function ValidateConditionHook<F>(supportsCondition: bool, condition: HookSlot<F>): (r: Outcome<string>)
    ensures r.Fail? <==> supportsCondition && condition.NotAFunction?
    ensures r.Fail? ==> r.error == ConditionMessagePrefix + condition.typeName
  {
    if supportsCondition && condition.NotAFunction? then Fail(ConditionMessagePrefix + condition.typeName) else Pass
  }

  /** One attempt: its result, and the calls it made into user code. */
  datatype Attempt<T, C> = Attempt(result: Result<T, Thrown>, calls: seq<C>)

  /**
   * A run of the retry loop: its result, how many attempts it made, the calls made by the
   * attempts and by onError in order, and the retry numbers onError reported.
   */
  datatype RetryRun<T, C> = RetryRun(result: Result<T, Thrown>, attempts: nat, calls: seq<C>, retryReports: seq<nat>)

  /**
   * The loop repeatPromiseUntilResolved hands its factory to, from attempt `k` (1-based) on:
   * a success ends it; a failure ends it when shouldStop holds or `k` has reached maxAttempts;
   * otherwise onError runs (retries = k - 1) and attempt k + 1 follows. There is no backoff.
   */
  function RetryFrom<T, C>(attempt: nat -> Attempt<T, C>, onError: Thrown -> seq<C>, maxAttempts: int,
                           errorCodesToSkip: seq<int>, k: nat): (r: RetryRun<T, C>)
    requires k >= 1
    ensures k <= r.attempts
    decreases if maxAttempts > k then maxAttempts - k else 0
  {
    var a := attempt(k);
    if a.result.Success? || ShouldStop(errorCodesToSkip, a.result.error) || k >= maxAttempts then
      RetryRun(a.result, k, a.calls, [])
    else
      var rest := RetryFrom(attempt, onError, maxAttempts, errorCodesToSkip, k + 1);
      RetryRun(rest.result, rest.attempts, a.calls + onError(a.result.error) + rest.calls,
               [OnErrorRetryNumber(k - 1)] + rest.retryReports)
  }

  /** The number of attempts never exceeds maxAttempts (and is at least one). */
  lemma {:induction false} RetryAttemptBound<T, C>(attempt: nat -> Attempt<T, C>, onError: Thrown -> seq<C>,
                                                   maxAttempts: int, errorCodesToSkip: seq<int>, k: nat)
    requires k >= 1
    ensures var r := RetryFrom(attempt, onError, maxAttempts, errorCodesToSkip, k);
      && k <= r.attempts
      && (k <= maxAttempts ==> r.attempts <= maxAttempts)
      && (k >= maxAttempts ==> r.attempts == k)
    decreases if maxAttempts > k then maxAttempts - k else 0
  {
    var a := attempt(k);
    if !(a.result.Success? || ShouldStop(errorCodesToSkip, a.result.error) || k >= maxAttempts) {
      RetryAttemptBound(attempt, onError, maxAttempts, errorCodesToSkip, k + 1);
    }
  }

  /**
   * The run ends on the result of its last attempt; a failure is either a skip code or the
   * maxAttempts-th attempt, and every earlier attempt failed with a retryable code.
   */
  lemma {:induction false} RetryOutcome<T, C>(attempt: nat -> Attempt<T, C>, onError: Thrown -> seq<C>,
                                              maxAttempts: int, errorCodesToSkip: seq<int>, k: nat)
    requires k >= 1
    ensures var r := RetryFrom(attempt, onError, maxAttempts, errorCodesToSkip, k);
      && r.result == attempt(r.attempts).result
      && (r.result.Failure? ==> ShouldStop(errorCodesToSkip, r.result.error) || r.attempts >= maxAttempts)
      && (forall j :: k <= j < r.attempts ==>
            attempt(j).result.Failure? && !ShouldStop(errorCodesToSkip, attempt(j).result.error))
    decreases if maxAttempts > k then maxAttempts - k else 0
  {
    var a := attempt(k);
    if !(a.result.Success? || ShouldStop(errorCodesToSkip, a.result.error) || k >= maxAttempts) {
      RetryOutcome(attempt, onError, maxAttempts, errorCodesToSkip, k + 1);
    }
  }

  /** A failure with a skip code ends the run on that attempt, with no retry reported. */
  lemma RetryStopsOnSkipCode<T, C>(attempt: nat -> Attempt<T, C>, onError: Thrown -> seq<C>,
                                   maxAttempts: int, errorCodesToSkip: seq<int>, k: nat)
    requires k >= 1
    requires attempt(k).result.Failure? && ShouldStop(errorCodesToSkip, attempt(k).result.error)
    ensures var r := RetryFrom(attempt, onError, maxAttempts, errorCodesToSkip, k);
      r.attempts == k && r.result == attempt(k).result && r.retryReports == [] && r.calls == attempt(k).calls
  {
  }

  /** A fetch that keeps failing with retryable codes is attempted exactly maxAttempts times. */
  lemma {:induction false} RetryExhausts<T, C>(attempt: nat -> Attempt<T, C>, onError: Thrown -> seq<C>,
                                               maxAttempts: int, errorCodesToSkip: seq<int>, k: nat)
    requires 1 <= k <= maxAttempts
    requires forall j :: k <= j <= maxAttempts ==>
      attempt(j).result.Failure? && !ShouldStop(errorCodesToSkip, attempt(j).result.error)
    ensures var r := RetryFrom(attempt, onError, maxAttempts, errorCodesToSkip, k);
      r.attempts == maxAttempts && r.result == attempt(maxAttempts).result
    decreases maxAttempts - k
  {
    if k < maxAttempts {
      RetryExhausts(attempt, onError, maxAttempts, errorCodesToSkip, k + 1);
    }
  }

  /** onError reports the retry numbers k, k + 1, ..., one per attempt after the first. */
  lemma {:induction false} RetryReportsNumbered<T, C>(attempt: nat -> Attempt<T, C>, onError: Thrown -> seq<C>,
                                                      maxAttempts: int, errorCodesToSkip: seq<int>, k: nat)
    requires k >= 1
    ensures var r := RetryFrom(attempt, onError, maxAttempts, errorCodesToSkip, k);
      && r.attempts >= k
      && |r.retryReports| == r.attempts - k
      && forall i :: 0 <= i < |r.retryReports| ==> r.retryReports[i] == k + i
    decreases if maxAttempts > k then maxAttempts - k else 0
  {
    var a := attempt(k);
    if !(a.result.Success? || ShouldStop(errorCodesToSkip, a.result.error) || k >= maxAttempts) {
      RetryReportsNumbered(attempt, onError, maxAttempts, errorCodesToSkip, k + 1);
    }
  }

  /** Every call a run makes comes from an attempt or from onError. */
  lemma {:induction false} RetryCallsFrom<T, C>(attempt: nat -> Attempt<T, C>, onError: Thrown -> seq<C>,
                                                maxAttempts: int, errorCodesToSkip: seq<int>, k: nat, allowed: C -> bool)
    requires k >= 1
    requires forall j, c :: c in attempt(j).calls ==> allowed(c)
    requires forall e, c :: c in onError(e) ==> allowed(c)
    ensures forall c :: c in RetryFrom(attempt, onError, maxAttempts, errorCodesToSkip, k).calls ==> allowed(c)
    decreases if maxAttempts > k then maxAttempts - k else 0
  {
    var a := attempt(k);
    if !(a.result.Success? || ShouldStop(errorCodesToSkip, a.result.error) || k >= maxAttempts) {
      RetryCallsFrom(attempt, onError, maxAttempts, errorCodesToSkip, k + 1, allowed);
    }
  }
}

=== FILE: js_values.dfy ===
/**
 * The few JavaScript values the crawler inspects: thrown values, whose `stack` ends up in an
 * iteration record, and the decimal rendering of a count inside a template literal.
 */
module JsValues {
  import opened Wrappers

  /** A thrown or compared JavaScript value: a number, a string, or an Error object with its stack text. */
  datatype Value = Num(n: int) | Str(s: string) | ErrorObject(stack: string)

  /**
   * An exception as the retry layer sees it: `status` is `error.response.status` when the failure
   * carries an HTTP response, and `value` is the thrown value itself.
   */
  datatype Thrown = Thrown(status: Option<int>, value: Value)

  /** `${error.stack}`: an Error object's stack, and "undefined" for any other thrown value. */
  function StackText(v: Value): string
  {
    if v.ErrorObject? then v.stack else "undefined"
  }

  predicate IsDigit(c: char) { '0' <= c <= '9' }

  function DigitChar(d: nat): (c: char)
    requires d < 10
    ensures IsDigit(c)
  {
    ['0', '1', '2', '3', '4', '5', '6', '7', '8', '9'][d]
  }

  function DigitValue(c: char): (d: nat)
    requires IsDigit(c)
    ensures d < 10
  {
    (c as int - '0' as int) as nat
  }

  /** The decimal text of a non-negative integer, as `${n}` renders it. */
  function NatToString(n: nat): (s: string)
    ensures |s| >= 1
    ensures forall i :: 0 <= i < |s| ==> IsDigit(s[i])
    ensures n >= 10 ==> s[0] != '0'
    decreases n
  {
    if n < 10 then [DigitChar(n)] else NatToString(n / 10) + [DigitChar(n % 10)]
  }

  /** Reads a run of decimal digits back as a number (the inverse of NatToString). */
  function ParseDigits(s: string): nat
    requires forall i :: 0 <= i < |s| ==> IsDigit(s[i])
    decreases |s|
  {
    if s == [] then 0 else 10 * ParseDigits(s[..|s| - 1]) + DigitValue(s[|s| - 1])
  }

  lemma {:induction false} ParseNatToString(n: nat)
    ensures ParseDigits(NatToString(n)) == n
    decreases n
  {
    var s := NatToString(n);
    if n < 10 {
      assert s[..|s| - 1] == [];
    } else {
      var p := NatToString(n / 10);
      assert s[..|s| - 1] == p;
      assert DigitValue(DigitChar(n % 10)) == n % 10;
      ParseNatToString(n / 10);
    }
  }

  /** Different counts never render to the same text. */
  lemma NatToStringInjective(m: nat, n: nat)
    requires NatToString(m) == NatToString(n)
    ensures m == n
  {
    ParseNatToString(m);
    ParseNatToString(n);
  }
}

=== FILE: page_spec.dfy ===
/**
 * What the page processor (PageHelper.js) and a composite node's scrape (OpenUrls.js) produce,
 * as functions of the collaborators' answers: one iteration record per address, with the calls
 * made into user code, the number of fetch attempts, the error strings recorded, and the
 * process-wide cache of the last response.
 */
module PageSpec {
  import opened Wrappers
  import opened JsValues
  import opened Records
  import opened ScraperConfig
  import opened HttpPolicy

  /**
   * What one page helper works with: the collaborators, the run configuration, its operation's
   * configuration, and the helper's own `lastResponse` instance field.
   */
  datatype Ctx = Ctx(env: Env, config: Config, op: OperationConfig, helperResponse: Option<Page>)

  const OpeningErrorPrefix := "There was an error opening page "
  const GetPageResponseMessage := "'getPageResponse' callback must be a function"

  /** The error string recorded for a failed iteration. */
  function ErrorText(href: string, thrown: Value): string
  {
    OpeningErrorPrefix + href + ", " + StackText(thrown)
  }

  /** The record of a failed iteration: no data, the error string, and successful = false. */
  function FailedRecord(href: string, thrown: Value): (r: Iteration)
    ensures r.address == href && r.data == ChildResults([])
    ensures r.error.Some? && r.successful == Some(false)
  {
    Iteration(href, ChildResults([]), Some(ErrorText(href, thrown)), Some(false))
  }

  /**
   * One call of getPage's promise factory, without the counters: the response (requested only
   * while the helper's own lastResponse is empty, and then stripped of style and script tags if
   * configured), then getPageHtml if configured.
   */
  function FetchAttempt(ctx: Ctx, href: string, k: nat): Attempt<Page, HookCall>
  {
    var fetched: Result<Page, Thrown> :=
      if ctx.helperResponse.None? then
        match ctx.env.request(href, k)
        case Failure(e) => Failure(e)
        case Success(p) =>
          Success(if ctx.config.removeStyleAndScriptTags then p.(data := ctx.env.stripTags(p.data)) else p)
      else Success(ctx.helperResponse.value);
    match fetched
    case Failure(e) => Attempt(Failure(e), [])
    case Success(p) =>
      match ctx.op.getPageHtml
      case None => Attempt(Success(p), [])
      case Some(hook) =>
        var calls := [GetPageHtml(p.data, p.url)];
        match hook(p.data, p.url)
        case Returned => Attempt(Success(p), calls)
        case Threw(v) => Attempt(Failure(Thrown(None, v)), calls)
  }

  function AttemptOf(ctx: Ctx, href: string): nat -> Attempt<Page, HookCall>
  {
    (k: nat) => FetchAttempt(ctx, href, k)
  }

  function OnErrorOf(ctx: Ctx): Thrown -> seq<HookCall>
  {
    e => EmitError(ctx.op.getException, e)
  }

  /** getPage: the promise factory under the retry loop, with the run's attempt bound and skip codes. */
  function Fetch(ctx: Ctx, href: string): RetryRun<Page, HookCall>
  {
    RetryFrom(AttemptOf(ctx, href), OnErrorOf(ctx), MaxAttempts(ctx.config.maxRetries), ctx.config.errorCodesToSkip, 1)
  }

  /** The tree runGetPageObjectHook builds from the first `k` child results. */
  function PageObjectTree(results: seq<ScrapeResult>, key: (string, PageObject) -> string, k: nat): PageObject
    requires k <= |results|
  {
    if k == 0 then map[]
    else
      var tree := PageObjectTree(results, key, k - 1);
      tree[key(results[k - 1].name, tree) := results[k - 1].data]
  }

  /** The key the `k`-th child result gets, given the tree built from the ones before it. */
  function ChildKey(results: seq<ScrapeResult>, key: (string, PageObject) -> string, k: nat): string
    requires k < |results|
  {
    key(results[k].name, PageObjectTree(results, key, k))
  }

  /** A key function that never picks a key already in the tree (a collision-avoiding getDictionaryKey). */
  ghost predicate AvoidsCollisions(key: (string, PageObject) -> string)
  {
    forall name, tree :: key(name, tree) !in tree
  }

  /** With a collision-avoiding key function the tree has one distinct key per child, mapped to that child's data. */
  lemma PageObjectTreeKeys(results: seq<ScrapeResult>, key: (string, PageObject) -> string, k: nat)
    requires k <= |results|
    requires AvoidsCollisions(key)
    ensures var tree := PageObjectTree(results, key, k);
      && |tree| == k
      && (forall i :: 0 <= i < k ==> ChildKey(results, key, i) in tree && tree[ChildKey(results, key, i)] == results[i].data)
      && (forall i, j :: 0 <= i < j < k ==> ChildKey(results, key, i) != ChildKey(results, key, j))
  {
    PageObjectTreeSize(results, key, k);
    forall i | 0 <= i < k
      ensures var tree := PageObjectTree(results, key, k);
        ChildKey(results, key, i) in tree && tree[ChildKey(results, key, i)] == results[i].data
    {
      PageObjectTreeValue(results, key, k, i);
    }
    forall i, j | 0 <= i < j < k
      ensures ChildKey(results, key, i) != ChildKey(results, key, j)
    {
      PageObjectTreeValue(results, key, j, i);
      assert ChildKey(results, key, j) !in PageObjectTree(results, key, j);
    }
  }

  /** Every child adds a key of its own. */
  lemma {:induction false} PageObjectTreeSize(results: seq<ScrapeResult>, key: (string, PageObject) -> string, k: nat)
    requires k <= |results|
    requires AvoidsCollisions(key)
    ensures |PageObjectTree(results, key, k)| == k
  {
    if k > 0 {
      PageObjectTreeSize(results, key, k - 1);
      var before := PageObjectTree(results, key, k - 1);
      var newKey := ChildKey(results, key, k - 1);
      assert newKey !in before;
      assert PageObjectTree(results, key, k).Keys == before.Keys + {newKey};
    }
  }

  /** The `i`-th child's key maps to that child's data, and no later child overwrites it. */
  lemma {:induction false} PageObjectTreeValue(results: seq<ScrapeResult>, key: (string, PageObject) -> string, k: nat, i: nat)
    requires i < k <= |results|
    requires AvoidsCollisions(key)
    ensures var tree := PageObjectTree(results, key, k);
      ChildKey(results, key, i) in tree && tree[ChildKey(results, key, i)] == results[i].data
    decreases k
  {
    var before := PageObjectTree(results, key, k - 1);
    var newKey := ChildKey(results, key, k - 1);
    assert PageObjectTree(results, key, k) == before[newKey := results[k - 1].data];
    if i < k - 1 {
      PageObjectTreeValue(results, key, k - 1, i);
      assert newKey !in before;
    }
  }

  /**
   * The outcome of the steps after the fetch: the children's results, or the value thrown on the
   * way; with the failures the nested nodes reported, the requests they issued (none when the
   * children were not reached) and the statics they left.
   */
  datatype HooksRun = HooksRun(result: Result<seq<ScrapeResult>, Value>, calls: seq<HookCall>, failed: seq<string>,
                               requests: nat, cache: Cache)

  /** runAfterResponseHooks on the cached response. */
  function AfterResponseHooks(op: OperationConfig, response: Option<Page>): (Outcome<Value>, seq<HookCall>)
  {
    match op.getPageResponse
    case Unset => (Pass, [])
    case NotAFunction(_) => (Fail(Str(GetPageResponseMessage)), [])
    case Fn(hook) =>
      match hook(response)
      case Returned => (Pass, [GetPageResponse(response)])
      case Threw(v) => (Fail(v), [GetPageResponse(response)])
  }

  /** runGetPageObjectHook: getPageObject, when set, receives the keyed tree and the address. */
  function PageObjectHook(op: OperationConfig, key: (string, PageObject) -> string, address: string,
                          results: seq<ScrapeResult>): (Outcome<Value>, seq<HookCall>)
  {
    match op.getPageObject
    case None => (Pass, [])
    case Some(hook) =>
      var tree := PageObjectTree(results, key, |results|);
      match hook(tree, address)
      case Returned => (Pass, [GetPageObject(tree, address)])
      case Threw(v) => (Fail(v), [GetPageObject(tree, address)])
  }

  /** The context the children are scraped against. */
  function ChildContext(response: Option<Page>, href: string): PageContext
  {
    PageContext(if response.Some? then Some(response.value.data) else None, href)
  }

  /**
   * Steps after the fetch, on the statics as they stand: the after-response hook and the children
   * get the shared last response; the children may rewrite the statics; then the page-object hook.
   */
  function AfterResponse(ctx: Ctx, href: string, cache: Cache): HooksRun
  {
    var response := cache.lastResponse;
    var (hooked, calls1) := AfterResponseHooks(ctx.op, response);
    if hooked.Fail? then HooksRun(Failure(hooked.error), calls1, [], 0, cache)
    else
      var context := ChildContext(response, href);
      var calls2 := calls1 + [ScrapeChildren(context)];
      var children := ctx.env.scrapeChildren(context, cache);
      match children.result
      case Failure(v) => HooksRun(Failure(v), calls2, children.failed, children.requests, children.cache)
      case Success(results) =>
        var (objected, calls3) := PageObjectHook(ctx.op, ctx.env.dictionaryKey, href, results);
        if objected.Fail? then
          HooksRun(Failure(objected.error), calls2 + calls3, children.failed, children.requests, children.cache)
        else HooksRun(Success(results), calls2 + calls3, children.failed, children.requests, children.cache)
  }

  /**
   * The result of processing one address: its record, the calls made, the requests issued (the
   * node's fetch attempts and its nested nodes' requests), the error strings the node records, the
   * failures reported to the run (the nested ones, then the node's own), and the cache afterwards.
   */
  datatype PageRun = PageRun(record: Iteration, calls: seq<HookCall>, attempts: nat, errors: seq<string>,
                             reported: seq<string>, cache: Cache)

  /** The record once the steps after the fetch are known: their results as data, or their error. */
  function Settle(href: string, h: HooksRun, calls: seq<HookCall>, attempts: nat): (r: PageRun)
    ensures r.record.address == href && r.record.data.ChildResults?
    ensures r.record.error.Some? <==> r.record.successful == Some(false)
    ensures r.record.successful != Some(true)
    ensures r.record.error.Some? ==> r.record.data == ChildResults([])
    ensures r.errors == if r.record.error.Some? then [r.record.error.value] else []
    ensures r.reported == h.failed + r.errors
    ensures r.calls == calls + h.calls && r.attempts == attempts + h.requests && r.cache == h.cache
  {
    match h.result
    case Success(results) =>
      PageRun(Iteration(href, ChildResults(results), None, None), calls + h.calls, attempts + h.requests, [],
              h.failed, h.cache)
    case Failure(v) =>
      var own := [ErrorText(href, v)];
      PageRun(FailedRecord(href, v), calls + h.calls, attempts + h.requests, own, h.failed + own, h.cache)
  }

  /**
   * processOneIteration without pagination. On a first run the page is fetched (and stored in the
   * cache) and the validator may abort; otherwise the cached response is used as it stands.
   */
  function PageIteration(ctx: Ctx, href: string, isFirstRun: bool, cache: Cache): PageRun
  {
    if isFirstRun then
      var cache1 := cache.(lastResponseUrl := Some(href));
      var f := Fetch(ctx, href);
      match f.result
      case Failure(e) =>
        var own := [ErrorText(href, e.value)];
        PageRun(FailedRecord(href, e.value), f.calls, f.attempts, own, own, cache1)
      case Success(page) =>
        var cache2 := cache1.(lastResponse := Some(page));
        match ctx.config.validatePageFunc
        case None => Settle(href, AfterResponse(ctx, href, cache2), f.calls, f.attempts)
        case Some(validate) =>
          var calls := f.calls + [ValidatePage(page.data)];
          match validate(page.data)
          case Failure(v) =>
            var own := [ErrorText(href, v)];
            PageRun(FailedRecord(href, v), calls, f.attempts, own, own, cache2)
          case Success(accepted) =>
            if accepted then Settle(href, AfterResponse(ctx, href, cache2), calls, f.attempts)
            else PageRun(Iteration(href, ChildResults([]), None, None), calls, f.attempts, [], [], cache2)
    else
      Settle(href, AfterResponse(ctx, href, cache), [], 0)
  }

  /** The accumulated result of processing a list of addresses one after the other. */
  datatype BatchRun = BatchRun(records: seq<Iteration>, calls: seq<HookCall>, attempts: nat, errors: seq<string>,
                               reported: seq<string>, cache: Cache)

  /**
   * A list of addresses processed one after the other: `step` processes an address on the cache
   * the previous one left, and `after` gives the calls made with each record once it is done.
   */
  function Batch(step: (string, Cache) -> PageRun, after: Iteration -> seq<HookCall>, urls: seq<string>, k: nat,
                 cache: Cache): BatchRun
    requires k <= |urls|
  {
    if k == 0 then BatchRun([], [], 0, [], [], cache)
    else
      var before := Batch(step, after, urls, k - 1, cache);
      var r := step(urls[k - 1], before.cache);
      BatchRun(before.records + [r.record], before.calls + (r.calls + after(r.record)), before.attempts + r.attempts,
               before.errors + r.errors, before.reported + r.reported, r.cache)
  }

  /** paginate's step: a pagination url processed without pagination on a first run. */
  function PageStep(ctx: Ctx): (string, Cache) -> PageRun
  {
    (url, cache) => PageIteration(ctx, url, true, cache)
  }

  /** The first `k` pagination urls, each processed without pagination on a first run. */
  function PagesRun(ctx: Ctx, urls: seq<string>, k: nat, cache: Cache): BatchRun
    requires k <= |urls|
  {
    Batch(PageStep(ctx), _ => [], urls, k, cache)
  }

  /** One more pagination url: the run over `k + 1` urls is the run over `k` followed by the next page. */
  lemma PagesRunNext(ctx: Ctx, urls: seq<string>, k: nat, cache: Cache)
    requires k < |urls|
    ensures var before := PagesRun(ctx, urls, k, cache);
      var r := PageIteration(ctx, urls[k], true, before.cache);
      PagesRun(ctx, urls, k + 1, cache)
        == BatchRun(before.records + [r.record], before.calls + r.calls, before.attempts + r.attempts,
                    before.errors + r.errors, before.reported + r.reported, r.cache)
  {
    var r := PageIteration(ctx, urls[k], true, PagesRun(ctx, urls, k, cache).cache);
    assert r.calls + [] == r.calls;
  }

  /** paginate: one record for the address whose data holds one record per derived url. */
  function PaginateRun(ctx: Ctx, address: string, cache: Cache): PageRun
  {
    var urls := ctx.env.paginationUrls(address, ctx.op.pagination);
    var b := PagesRun(ctx, urls, |urls|, cache);
    PageRun(Iteration(address, PageRecords(b.records), None, None), b.calls, b.attempts, b.errors, b.reported, b.cache)
  }

  /** processOneIteration */
  function IterationRun(ctx: Ctx, href: string, shouldPaginate: bool, isFirstRun: bool, cache: Cache): PageRun
  {
    if shouldPaginate then PaginateRun(ctx, href, cache) else PageIteration(ctx, href, isFirstRun, cache)
  }

  /** The href OpenUrls opens for a url: transformHref's result, or the url itself without one. */
  function Transform(op: OperationConfig, url: string): string
  {
    if op.transformHref.Some? then op.transformHref.value(url) else url
  }

  /** The getPageData call made for a record, when the hook is configured. */
  function PageDataCalls(op: OperationConfig, record: Iteration): seq<HookCall>
  {
    if op.getPageData.Some? then [GetPageData(record)] else []
  }

  /** OpenUrls.scrape's step: a url transformed and processed on a first run. */
  function UrlStep(ctx: Ctx, shouldPaginate: bool): (string, Cache) -> PageRun
  {
    (url, cache) => IterationRun(ctx, Transform(ctx.op, url), shouldPaginate, true, cache)
  }

  /** OpenUrls.scrape over its first `k` urls: every url transformed, processed, then getPageData. */
  function UrlsRun(ctx: Ctx, urls: seq<string>, shouldPaginate: bool, k: nat, cache: Cache): BatchRun
    requires k <= |urls|
  {
    Batch(UrlStep(ctx, shouldPaginate), record => PageDataCalls(ctx.op, record), urls, k, cache)
  }

  /** One more url: the run over `k + 1` urls is the run over `k` followed by the next url's step. */
  lemma UrlsRunNext(ctx: Ctx, urls: seq<string>, shouldPaginate: bool, k: nat, cache: Cache)
    requires k < |urls|
    ensures var before := UrlsRun(ctx, urls, shouldPaginate, k, cache);
      var r := IterationRun(ctx, Transform(ctx.op, urls[k]), shouldPaginate, true, before.cache);
      UrlsRun(ctx, urls, shouldPaginate, k + 1, cache)
        == BatchRun(before.records + [r.record], before.calls + (r.calls + PageDataCalls(ctx.op, r.record)),
                    before.attempts + r.attempts, before.errors + r.errors, before.reported + r.reported, r.cache)
  {
  }

  /** The error strings a record carries: its own, then those of its pagination pages in order. */
  function RecordErrors(it: Iteration): seq<string>
    decreases it, 1
  {
    (if it.error.Some? then [it.error.value] else []) +
    (if it.data.PageRecords? then AllErrors(it.data.pages) else [])
  }

  function AllErrors(records: seq<Iteration>): seq<string>
    decreases records, 0
  {
    if records == [] then [] else AllErrors(records[..|records| - 1]) + RecordErrors(records[|records| - 1])
  }

  /** The records handed to getPageData, in the order of the calls. */
  function PageDataRecords(calls: seq<HookCall>): seq<Iteration>
  {
    if calls == [] then []
    else PageDataRecords(calls[..|calls| - 1]) + (if calls[|calls| - 1].GetPageData? then [calls[|calls| - 1].record] else [])
  }

  lemma {:induction false} PageDataRecordsAppend(a: seq<HookCall>, b: seq<HookCall>)
    ensures PageDataRecords(a + b) == PageDataRecords(a) + PageDataRecords(b)
    decreases |b|
  {
    if b == [] {
      assert a + b == a;
    } else {
      var b' := b[..|b| - 1];
      assert (a + b)[..|a + b| - 1] == a + b';
      assert (a + b)[|a + b| - 1] == b[|b| - 1];
      PageDataRecordsAppend(a, b');
    }
  }

  lemma {:induction false} NoPageDataRecords(calls: seq<HookCall>)
    requires forall c :: c in calls ==> !c.GetPageData?
    ensures PageDataRecords(calls) == []
    decreases |calls|
  {
    if calls != [] {
      NoPageDataRecords(calls[..|calls| - 1]);
    }
  }

  /** Fetching calls only getPageHtml and getException. */
  lemma FetchCalls(ctx: Ctx, href: string)
    ensures forall c :: c in Fetch(ctx, href).calls ==> c.GetPageHtml? || c.GetException?
  {
    var allowed := (c: HookCall) => c.GetPageHtml? || c.GetException?;
    forall j, c | c in AttemptOf(ctx, href)(j).calls ensures allowed(c) { }
    forall e, c | c in OnErrorOf(ctx)(e) ensures allowed(c) { }
    RetryCallsFrom(AttemptOf(ctx, href), OnErrorOf(ctx), MaxAttempts(ctx.config.maxRetries),
                   ctx.config.errorCodesToSkip, 1, allowed);
  }

  /** A record with child results carries only its own error. */
  lemma ChildRecordErrors(it: Iteration)
    requires it.data.ChildResults?
    ensures RecordErrors(it) == if it.error.Some? then [it.error.value] else []
  {
  }

  /** The steps after the fetch never call getPageData. */
  lemma AfterResponseCalls(ctx: Ctx, href: string, cache: Cache)
    ensures forall c :: c in AfterResponse(ctx, href, cache).calls ==> !c.GetPageData?
  {
  }

  /**
   * A non-paginated record always has the processed address; it carries an error exactly when
   * successful is false (and is never marked successful), an error leaves its data empty, the
   * error strings recorded are exactly the record's own, and the node's own error is the last
   * failure reported to the run. Without a fetch the only requests are the nested nodes'.
   */
  lemma PageIterationRecord(ctx: Ctx, href: string, isFirstRun: bool, cache: Cache)
    ensures var r := PageIteration(ctx, href, isFirstRun, cache);
      && r.record.address == href
      && (r.record.error.Some? <==> r.record.successful == Some(false))
      && r.record.successful != Some(true)
      && (r.record.error.Some? ==> r.record.data == ChildResults([]))
      && r.record.data.ChildResults?
      && r.errors == RecordErrors(r.record)
      && (forall c :: c in r.calls ==> !c.GetPageData?)
      && |r.errors| <= |r.reported| && r.reported[|r.reported| - |r.errors|..] == r.errors
      && (!isFirstRun ==> var h := AfterResponse(ctx, href, cache);
            r.cache == h.cache && r.attempts == h.requests && r.reported == h.failed + r.errors)
  {
    var r := PageIteration(ctx, href, isFirstRun, cache);
    if isFirstRun {
      var f := Fetch(ctx, href);
      FetchCalls(ctx, href);
      if f.result.Success? {
        AfterResponseCalls(ctx, href, Cache(Some(f.result.value), Some(href)));
      }
    } else {
      AfterResponseCalls(ctx, href, cache);
    }
    ChildRecordErrors(r.record);
  }

  /** On a first run the record, calls, requests, errors and reports do not depend on the cache beforehand. */
  lemma FirstRunIgnoresCache(ctx: Ctx, href: string, c1: Cache, c2: Cache)
    ensures var r1 := PageIteration(ctx, href, true, c1); var r2 := PageIteration(ctx, href, true, c2);
      && r1.record == r2.record && r1.calls == r2.calls && r1.attempts == r2.attempts && r1.errors == r2.errors
      && r1.reported == r2.reported
  {
  }

  /**
   * If the validator rejects the fetched page, the record has empty data and no error, nothing is
   * recorded, and after the fetch only the validator was called: no after-response hook, no
   * children, no page-object hook.
   */
  lemma ValidatorAbort(ctx: Ctx, href: string, cache: Cache)
    requires Fetch(ctx, href).result.Success?
    requires ctx.config.validatePageFunc.Some?
    requires ctx.config.validatePageFunc.value(Fetch(ctx, href).result.value.data) == Success(false)
    ensures var r := PageIteration(ctx, href, true, cache); var page := Fetch(ctx, href).result.value;
      && r.record == Iteration(href, ChildResults([]), None, None)
      && r.errors == [] && r.reported == [] && r.attempts == Fetch(ctx, href).attempts
      && r.calls == Fetch(ctx, href).calls + [ValidatePage(page.data)]
      && (forall c :: c in r.calls ==> !c.ScrapeChildren? && !c.GetPageResponse? && !c.GetPageObject?)
  {
    FetchCalls(ctx, href);
  }

  /**
   * When the page is fetched, accepted and every later step returns, the record's data is exactly
   * the children's results on that page, with no error and no successful flag. The children run
   * with the statics holding this page and address, and the statics are what they leave.
   */
  lemma SuccessfulRecord(ctx: Ctx, href: string, cache: Cache)
    requires Fetch(ctx, href).result.Success?
    requires var page := Fetch(ctx, href).result.value;
      ctx.config.validatePageFunc.None? || ctx.config.validatePageFunc.value(page.data) == Success(true)
    requires AfterResponse(ctx, href, Cache(Some(Fetch(ctx, href).result.value), Some(href))).result.Success?
    ensures var r := PageIteration(ctx, href, true, cache); var page := Fetch(ctx, href).result.value;
      var children := ctx.env.scrapeChildren(PageContext(Some(page.data), href), Cache(Some(page), Some(href)));
      && children.result.Success?
      && r.record == Iteration(href, ChildResults(children.result.value), None, None)
      && r.errors == []
      && r.cache == children.cache
  {
  }

  /**
   * Once the children are reached on a fetched and accepted page, what the nested nodes reported
   * reaches the run before the node's own error, their requests count with the node's fetch
   * attempts, and the statics are those the children leave.
   */
  lemma NestedReports(ctx: Ctx, href: string, cache: Cache)
    requires Fetch(ctx, href).result.Success?
    requires var page := Fetch(ctx, href).result.value;
      ctx.config.validatePageFunc.None? || ctx.config.validatePageFunc.value(page.data) == Success(true)
    requires AfterResponseHooks(ctx.op, Some(Fetch(ctx, href).result.value)).0.Pass?
    ensures var r := PageIteration(ctx, href, true, cache); var page := Fetch(ctx, href).result.value;
      var children := ctx.env.scrapeChildren(PageContext(Some(page.data), href), Cache(Some(page), Some(href)));
      && r.reported == children.failed + r.errors
      && r.attempts == Fetch(ctx, href).attempts + children.requests
      && r.cache == children.cache
      && |r.errors| <= 1
  {
  }

  /** Children that report nothing, issue no requests and leave the statics as they found them. */
  ghost predicate QuietChildren(env: Env)
  {
    forall c, k :: env.scrapeChildren(c, k).failed == [] && env.scrapeChildren(c, k).requests == 0
                   && env.scrapeChildren(c, k).cache == k
  }

  /**
   * With quiet children a page reports exactly the node's own errors and issues only its fetch
   * attempts; a first run notes the address and keeps the fetched page in the statics, and a later
   * run leaves them alone.
   */
  lemma QuietPage(ctx: Ctx, href: string, isFirstRun: bool, cache: Cache)
    requires QuietChildren(ctx.env)
    ensures var r := PageIteration(ctx, href, isFirstRun, cache);
      && r.reported == r.errors
      && r.attempts == (if isFirstRun then Fetch(ctx, href).attempts else 0)
      && (isFirstRun ==> r.cache.lastResponseUrl == Some(href)
                         && (Fetch(ctx, href).result.Success? ==> r.cache.lastResponse == Some(Fetch(ctx, href).result.value)))
      && (!isFirstRun ==> r.cache == cache)
  {
    if isFirstRun {
      var f := Fetch(ctx, href);
      if f.result.Success? {
        var k := Cache(Some(f.result.value), Some(href));
        var children := ctx.env.scrapeChildren(ChildContext(Some(f.result.value), href), k);
        assert children.failed == [] && children.requests == 0 && children.cache == k;
      }
    } else {
      var children := ctx.env.scrapeChildren(ChildContext(cache.lastResponse, href), cache);
      assert children.failed == [] && children.requests == 0 && children.cache == cache;
    }
  }

  /** A step whose record does not depend on the cache it starts from. */
  ghost predicate IgnoresCache(step: (string, Cache) -> PageRun)
  {
    forall url, cache :: step(url, cache).record == step(url, InitialCache).record
  }

  /** A step that records exactly the errors its record carries. */
  ghost predicate RecordsOwnErrors(step: (string, Cache) -> PageRun)
  {
    forall url, cache :: step(url, cache).errors == RecordErrors(step(url, cache).record)
  }

  /** A step that never calls getPageData. */
  ghost predicate NoPageData(step: (string, Cache) -> PageRun)
  {
    forall url, cache, c :: c in step(url, cache).calls ==> !c.GetPageData?
  }

  /** With a cache-independent step, each record is the one its url gets when processed on its own. */
  lemma {:induction false} BatchEach(step: (string, Cache) -> PageRun, after: Iteration -> seq<HookCall>,
                                     urls: seq<string>, k: nat, cache: Cache)
    requires k <= |urls| && IgnoresCache(step)
    ensures var b := Batch(step, after, urls, k, cache);
      && |b.records| == k
      && forall i :: 0 <= i < k ==> b.records[i] == step(urls[i], InitialCache).record
  {
    if k > 0 {
      BatchEach(step, after, urls, k - 1, cache);
      var before := Batch(step, after, urls, k - 1, cache);
      var b := Batch(step, after, urls, k, cache);
      assert b.records == before.records + [step(urls[k - 1], before.cache).record];
      forall i | 0 <= i < k - 1
        ensures b.records[i] == step(urls[i], InitialCache).record
      {
        assert b.records[i] == before.records[i];
      }
    }
  }

  /** With a step that records its record's errors, the batch's errors are its records' errors. */
  lemma {:induction false} BatchErrors(step: (string, Cache) -> PageRun, after: Iteration -> seq<HookCall>,
                                       urls: seq<string>, k: nat, cache: Cache)
    requires k <= |urls| && RecordsOwnErrors(step)
    ensures var b := Batch(step, after, urls, k, cache);
      |b.records| == k && b.errors == AllErrors(b.records)
  {
    if k > 0 {
      BatchErrors(step, after, urls, k - 1, cache);
      var before := Batch(step, after, urls, k - 1, cache);
      var r := step(urls[k - 1], before.cache);
      AllErrorsSnoc(before.records, r.record);
    }
  }

  /** Without getPageData in the steps or after them, the batch never calls it. */
  lemma {:induction false} BatchCalls(step: (string, Cache) -> PageRun, after: Iteration -> seq<HookCall>,
                                      urls: seq<string>, k: nat, cache: Cache)
    requires k <= |urls| && NoPageData(step)
    requires forall record, c :: c in after(record) ==> !c.GetPageData?
    ensures forall c :: c in Batch(step, after, urls, k, cache).calls ==> !c.GetPageData?
  {
    if k > 0 {
      BatchCalls(step, after, urls, k - 1, cache);
    }
  }

  /**
   * When each record is followed by its getPageData call, getPageData (if configured) receives
   * exactly the batch's records, in order.
   */
  lemma {:induction false} BatchPageData(step: (string, Cache) -> PageRun, after: Iteration -> seq<HookCall>,
                                         op: OperationConfig, urls: seq<string>, k: nat, cache: Cache)
    requires k <= |urls| && NoPageData(step)
    requires forall record :: after(record) == PageDataCalls(op, record)
    ensures var b := Batch(step, after, urls, k, cache);
      PageDataRecords(b.calls) == (if op.getPageData.Some? then b.records else [])
  {
    if k > 0 {
      BatchPageData(step, after, op, urls, k - 1, cache);
      var before := Batch(step, after, urls, k - 1, cache);
      var r := step(urls[k - 1], before.cache);
      PageDataStep(op, before.calls, before.records, r.calls, r.record);
    }
  }

  /** paginate's step ignores the cache, records its record's errors and never calls getPageData. */
  lemma PageStepFacts(ctx: Ctx)
    ensures IgnoresCache(PageStep(ctx)) && RecordsOwnErrors(PageStep(ctx)) && NoPageData(PageStep(ctx))
  {
    forall url, cache
      ensures PageStep(ctx)(url, cache).record == PageStep(ctx)(url, InitialCache).record
      ensures PageStep(ctx)(url, cache).errors == RecordErrors(PageStep(ctx)(url, cache).record)
      ensures forall c :: c in PageStep(ctx)(url, cache).calls ==> !c.GetPageData?
    {
      PageIterationRecord(ctx, url, true, cache);
      FirstRunIgnoresCache(ctx, url, cache, InitialCache);
    }
  }

  /** The first `k` pagination pages: one record per url, in url order, each as processed on its own. */
  lemma PagesRunRecords(ctx: Ctx, urls: seq<string>, k: nat, cache: Cache)
    requires k <= |urls|
    ensures var b := PagesRun(ctx, urls, k, cache);
      && |b.records| == k
      && (forall i :: 0 <= i < k ==>
            b.records[i] == PageIteration(ctx, urls[i], true, InitialCache).record && b.records[i].address == urls[i])
      && b.errors == AllErrors(b.records)
      && (forall c :: c in b.calls ==> !c.GetPageData?)
  {
    PageStepFacts(ctx);
    BatchEach(PageStep(ctx), _ => [], urls, k, cache);
    BatchErrors(PageStep(ctx), _ => [], urls, k, cache);
    BatchCalls(PageStep(ctx), _ => [], urls, k, cache);
    forall i | 0 <= i < k
      ensures PageIteration(ctx, urls[i], true, InitialCache).record.address == urls[i]
    {
      PageIterationRecord(ctx, urls[i], true, InitialCache);
    }
  }

  /** Appending a record appends its errors. */
  lemma AllErrorsSnoc(records: seq<Iteration>, it: Iteration)
    ensures AllErrors(records + [it]) == AllErrors(records) + RecordErrors(it)
  {
    assert (records + [it])[..|records|] == records;
  }

  /**
   * paginate: a single record for the address whose data has exactly one record per derived url,
   * in url order, each processed without pagination; its errors are those of the pages.
   */
  lemma PaginateRecord(ctx: Ctx, address: string, cache: Cache)
    ensures var r := PaginateRun(ctx, address, cache); var urls := ctx.env.paginationUrls(address, ctx.op.pagination);
      && r.record.address == address
      && r.record.error.None? && r.record.successful.None?
      && r.record.data.PageRecords?
      && |r.record.data.pages| == |urls|
      && (forall i :: 0 <= i < |urls| ==>
            r.record.data.pages[i] == IterationRun(ctx, urls[i], false, true, InitialCache).record)
      && r.errors == RecordErrors(r.record)
      && (forall c :: c in r.calls ==> !c.GetPageData?)
  {
    var urls := ctx.env.paginationUrls(address, ctx.op.pagination);
    PagesRunRecords(ctx, urls, |urls|, cache);
  }

  /** processOneIteration returns a record for the address it was given, and records its errors. */
  lemma IterationRunRecord(ctx: Ctx, href: string, shouldPaginate: bool, cache: Cache)
    ensures var r := IterationRun(ctx, href, shouldPaginate, true, cache);
      && r.record.address == href
      && r.record == IterationRun(ctx, href, shouldPaginate, true, InitialCache).record
      && r.errors == RecordErrors(r.record)
      && (forall c :: c in r.calls ==> !c.GetPageData?)
      && (shouldPaginate ==> r.record == PaginateRun(ctx, href, cache).record)
  {
    IterationRunCalls(ctx, href, shouldPaginate, cache);
    IterationRunIgnoresCache(ctx, href, shouldPaginate, cache);
  }

  /** processOneIteration's record, errors and calls, without reference to another cache. */
  lemma IterationRunCalls(ctx: Ctx, href: string, shouldPaginate: bool, cache: Cache)
    ensures var r := IterationRun(ctx, href, shouldPaginate, true, cache);
      && r.record.address == href
      && r.errors == RecordErrors(r.record)
      && (forall c :: c in r.calls ==> !c.GetPageData?)
  {
    if shouldPaginate {
      PaginateRecord(ctx, href, cache);
    } else {
      PageIterationRecord(ctx, href, true, cache);
    }
  }

  /** On a first run, processOneIteration's record does not depend on the cache beforehand. */
  lemma IterationRunIgnoresCache(ctx: Ctx, href: string, shouldPaginate: bool, cache: Cache)
    ensures IterationRun(ctx, href, shouldPaginate, true, cache).record
         == IterationRun(ctx, href, shouldPaginate, true, InitialCache).record
  {
    if shouldPaginate {
      PaginateRecord(ctx, href, cache);
      PaginateRecord(ctx, href, InitialCache);
    } else {
      FirstRunIgnoresCache(ctx, href, cache, InitialCache);
    }
  }

  /** OpenUrls.scrape's step ignores the cache, records its record's errors and never calls getPageData. */
  lemma UrlStepFacts(ctx: Ctx, shouldPaginate: bool)
    ensures var step := UrlStep(ctx, shouldPaginate);
      IgnoresCache(step) && RecordsOwnErrors(step) && NoPageData(step)
  {
    var step := UrlStep(ctx, shouldPaginate);
    forall url, cache
      ensures step(url, cache).record == step(url, InitialCache).record
      ensures step(url, cache).errors == RecordErrors(step(url, cache).record)
      ensures forall c :: c in step(url, cache).calls ==> !c.GetPageData?
    {
      IterationRunCalls(ctx, Transform(ctx.op, url), shouldPaginate, cache);
      IterationRunIgnoresCache(ctx, Transform(ctx.op, url), shouldPaginate, cache);
    }
  }

  /**
   * OpenUrls.scrape over its first `k` urls: one record per url in url order, each the record of
   * the transformed url under the same pagination flag; getPageData, when configured, receives
   * exactly these records in this order; the errors are those of the records.
   */
  lemma UrlsRunRecords(ctx: Ctx, urls: seq<string>, shouldPaginate: bool, k: nat, cache: Cache)
    requires k <= |urls|
    ensures var b := UrlsRun(ctx, urls, shouldPaginate, k, cache);
      && |b.records| == k
      && (forall i :: 0 <= i < k ==>
            b.records[i] == IterationRun(ctx, Transform(ctx.op, urls[i]), shouldPaginate, true, InitialCache).record
            && b.records[i].address == Transform(ctx.op, urls[i]))
      && PageDataRecords(b.calls) == (if ctx.op.getPageData.Some? then b.records else [])
      && b.errors == AllErrors(b.records)
  {
    var step := UrlStep(ctx, shouldPaginate);
    var after := (record: Iteration) => PageDataCalls(ctx.op, record);
    UrlStepFacts(ctx, shouldPaginate);
    BatchEach(step, after, urls, k, cache);
    BatchErrors(step, after, urls, k, cache);
    BatchPageData(step, after, ctx.op, urls, k, cache);
    forall i | 0 <= i < k
      ensures IterationRun(ctx, Transform(ctx.op, urls[i]), shouldPaginate, true, InitialCache).record.address
              == Transform(ctx.op, urls[i])
    {
      IterationRunCalls(ctx, Transform(ctx.op, urls[i]), shouldPaginate, InitialCache);
    }
  }

  /** A step that reports to the run exactly the errors it records. */
  ghost predicate ReportsOwnErrors(step: (string, Cache) -> PageRun)
  {
    forall url, cache :: step(url, cache).reported == step(url, cache).errors
  }

  /** With steps that report only their own errors, the batch reports exactly the errors it records. */
  lemma {:induction false} BatchReportsOwnErrors(step: (string, Cache) -> PageRun, after: Iteration -> seq<HookCall>,
                                                 urls: seq<string>, k: nat, cache: Cache)
    requires k <= |urls| && ReportsOwnErrors(step)
    ensures Batch(step, after, urls, k, cache).reported == Batch(step, after, urls, k, cache).errors
  {
    if k > 0 {
      BatchReportsOwnErrors(step, after, urls, k - 1, cache);
    }
  }

  /**
   * With children that report nothing, OpenUrls.scrape reports to the run exactly the errors its
   * records carry, in record order.
   */
  lemma UrlsRunQuiet(ctx: Ctx, urls: seq<string>, shouldPaginate: bool, k: nat, cache: Cache)
    requires k <= |urls| && QuietChildren(ctx.env)
    ensures var b := UrlsRun(ctx, urls, shouldPaginate, k, cache);
      b.reported == b.errors == AllErrors(b.records)
  {
    var step := UrlStep(ctx, shouldPaginate);
    forall u, c
      ensures PageStep(ctx)(u, c).reported == PageStep(ctx)(u, c).errors
    {
      QuietPage(ctx, u, true, c);
    }
    forall url, c
      ensures step(url, c).reported == step(url, c).errors
    {
      var href := Transform(ctx.op, url);
      if shouldPaginate {
        var pages := ctx.env.paginationUrls(href, ctx.op.pagination);
        BatchReportsOwnErrors(PageStep(ctx), _ => [], pages, |pages|, c);
      } else {
        QuietPage(ctx, href, true, c);
      }
    }
    BatchReportsOwnErrors(step, (record: Iteration) => PageDataCalls(ctx.op, record), urls, k, cache);
    UrlsRunRecords(ctx, urls, shouldPaginate, k, cache);
  }

  /** One more url: its own calls hand nothing to getPageData, then its record is handed over. */
  lemma PageDataStep(op: OperationConfig, calls: seq<HookCall>, records: seq<Iteration>,
                     pageCalls: seq<HookCall>, record: Iteration)
    requires PageDataRecords(calls) == (if op.getPageData.Some? then records else [])
    requires forall c :: c in pageCalls ==> !c.GetPageData?
    ensures PageDataRecords(calls + (pageCalls + PageDataCalls(op, record)))
            == (if op.getPageData.Some? then records + [record] else [])
  {
    NoPageDataRecords(pageCalls);
    PageDataRecordsAppend(pageCalls, PageDataCalls(op, record));
    PageDataRecordsAppend(calls, pageCalls + PageDataCalls(op, record));
    PageDataCallsRecords(op, record);
  }

  /** The getPageData calls for a record hand over that record, exactly when the hook is configured. */
  lemma PageDataCallsRecords(op: OperationConfig, record: Iteration)
    ensures PageDataRecords(PageDataCalls(op, record)) == if op.getPageData.Some? then [record] else []
  {
    if op.getPageData.Some? {
      assert PageDataCalls(op, record)[..0] == [];
    }
  }

  /**
   * runAfterResponseHooks: nothing happens without a getPageResponse key; a key that is not a
   * function throws the fixed message without calling anything; a function is called once with
   * the response and its throw is passed on.
   */
  lemma AfterResponseHooksCases(op: OperationConfig, response: Option<Page>)
    ensures var (outcome, calls) := AfterResponseHooks(op, response);
      && (op.getPageResponse.Unset? ==> outcome.Pass? && calls == [])
      && (op.getPageResponse.NotAFunction? ==> outcome == Fail(Str(GetPageResponseMessage)) && calls == [])
      && (op.getPageResponse.Fn? ==>
            && calls == [GetPageResponse(response)]
            && (outcome.Pass? <==> op.getPageResponse.f(response).Returned?)
            && (outcome.Fail? ==> outcome.error == op.getPageResponse.f(response).value))
  {
  }

  /**
   * runGetPageObjectHook: without getPageObject nothing is called; with it the hook is called
   * once, with the keyed tree of the children's results and the address, and its throw is passed on.
   */
  lemma PageObjectHookCases(op: OperationConfig, key: (string, PageObject) -> string, address: string,
                            results: seq<ScrapeResult>)
    ensures var (outcome, calls) := PageObjectHook(op, key, address, results);
      && (op.getPageObject.None? ==> outcome.Pass? && calls == [])
      && (op.getPageObject.Some? ==>
            var tree := PageObjectTree(results, key, |results|);
            && calls == [GetPageObject(tree, address)]
            && (outcome.Pass? <==> op.getPageObject.value(tree, address).Returned?)
            && (outcome.Fail? ==> outcome.error == op.getPageObject.value(tree, address).value))
  {
  }

  /** Without a transformHref function every url is opened as given. */
  lemma TransformDefault(op: OperationConfig, url: string)
    requires op.transformHref.None?
    ensures Transform(op, url) == url
  {
  }

  /**
   * The pagination flag of OpenUrls.scrape: set exactly when the operation has a pagination
   * key, and then every url's record is a pagination record holding one record per derived page.
   */
  lemma PaginatedUrlsRun(ctx: Ctx, urls: seq<string>, k: nat, cache: Cache)
    requires k <= |urls|
    requires ctx.op.pagination.Some?
    ensures var b := UrlsRun(ctx, urls, ctx.op.pagination.Some?, k, cache);
      |b.records| == k && forall i :: 0 <= i < k ==>
        && b.records[i].data.PageRecords?
        && |b.records[i].data.pages| == |ctx.env.paginationUrls(Transform(ctx.op, urls[i]), ctx.op.pagination)|
  {
    UrlStepFacts(ctx, true);
    BatchEach(UrlStep(ctx, true), record => PageDataCalls(ctx.op, record), urls, k, cache);
    forall i | 0 <= i < k
      ensures var r := IterationRun(ctx, Transform(ctx.op, urls[i]), true, true, InitialCache).record;
        r.data.PageRecords? && |r.data.pages| == |ctx.env.paginationUrls(Transform(ctx.op, urls[i]), ctx.op.pagination)|
    {
      PaginateRecord(ctx, Transform(ctx.op, urls[i]), InitialCache);
    }
  }

  /** getPage's retry loop ends at attempt `k` on a success, a skip code or the last attempt. */
  lemma FetchStops(ctx: Ctx, href: string, k: nat, a: Attempt<Page, HookCall>)
    requires k >= 1 && a == FetchAttempt(ctx, href, k)
    requires a.result.Success? || ShouldStop(ctx.config.errorCodesToSkip, a.result.error) || k >= MaxAttempts(ctx.config.maxRetries)
    ensures var run := RetryFrom(AttemptOf(ctx, href), OnErrorOf(ctx), MaxAttempts(ctx.config.maxRetries), ctx.config.errorCodesToSkip, k);
      run.result == a.result && run.attempts == k && run.calls == a.calls
  {
    assert AttemptOf(ctx, href)(k) == a;
  }

  /** Otherwise getException is told of the failure and attempt k + 1 follows. */
  lemma FetchContinues(ctx: Ctx, href: string, k: nat, a: Attempt<Page, HookCall>)
    requires k >= 1 && a == FetchAttempt(ctx, href, k)
    requires !(a.result.Success? || ShouldStop(ctx.config.errorCodesToSkip, a.result.error) || k >= MaxAttempts(ctx.config.maxRetries))
    ensures var run := RetryFrom(AttemptOf(ctx, href), OnErrorOf(ctx), MaxAttempts(ctx.config.maxRetries), ctx.config.errorCodesToSkip, k);
      var rest := RetryFrom(AttemptOf(ctx, href), OnErrorOf(ctx), MaxAttempts(ctx.config.maxRetries), ctx.config.errorCodesToSkip, k + 1);
      && run.result == rest.result && run.attempts == rest.attempts
      && run.calls == a.calls + EmitError(ctx.op.getException, a.result.error) + rest.calls
  {
    assert AttemptOf(ctx, href)(k) == a;
  }
}

=== FILE: records.dfy ===
/**
 * The values that flow through a crawl: fetched pages, iteration records, the tagged result of a
 * composite node's scrape, the user's per-operation hooks, and the collaborators the crawler
 * calls but does not implement (transport, markup stripping, pagination, children's scrape).
 */
module Records {
  import opened Wrappers
  import opened JsValues

  /**
   * The two statics of PageHelper: the last response (None while it is still the initial "")
   * and the url written to `lastResponseUrl` (a property the class never declared).
   */
  datatype Cache = Cache(lastResponse: Option<Page>, lastResponseUrl: Option<string>)

  const InitialCache: Cache := Cache(None, None)

  /** The constructor name of an operation node. */
  datatype Kind = Root | OpenUrls | OtherKind(className: string)

  function KindName(k: Kind): string
  {
    match k
    case Root => "Root"
    case OpenUrls => "OpenUrls"
    case OtherKind(name) => name
  }

  /** A fetched page (the transport's response): its markup, final url and status. */
  datatype Page = Page(data: string, url: string, status: int)

  /** `{address, data, error?, successful?}`: the result of processing one address. */
  datatype Iteration = Iteration(
    address: string,
    data: IterationData,
    error: Option<string>,
    successful: Option<bool>)

  /**
   * An iteration's `data`: the ordered results of the node's children on that page, or, for a
   * paginated address, one record per derived page.
   */
  datatype IterationData = ChildResults(results: seq<ScrapeResult>) | PageRecords(pages: seq<Iteration>)

  /** `{type, name, data}`: what a composite node's scrape returns. */
  datatype ScrapeResult = ScrapeResult(kind: string, name: string, data: seq<Iteration>)

  /** What the children of a node are scraped against: the page's html (absent for an empty cache) and url. */
  datatype PageContext = PageContext(html: Option<string>, url: string)

  /** What a user hook did: returned, or threw a value. */
  datatype HookOutcome = Returned | Threw(value: Value)

  /** A hook key of the configuration: left out (or falsy), set to a non-function, or a function. */
  datatype HookSlot<F> = Unset | NotAFunction(typeName: string) | Fn(f: F)

  /** The page-object tree handed to getPageObject: one key per child result. */
  type PageObject = map<string, seq<Iteration>>

  /** The pagination key of an operation's configuration, as its key/value pairs. */
  datatype PaginationSpec = PaginationSpec(settings: map<string, string>)

  /** One call the crawler made into user code or into a collaborator, in the order made. */
  datatype HookCall =
    | GetPageHtml(html: string, url: string)
    | GetException(error: Thrown)
    | ValidatePage(html: string)
    | GetPageResponse(response: Option<Page>)
    | ScrapeChildren(context: PageContext)
    | GetPageObject(tree: PageObject, address: string)
    | GetPageData(record: Iteration)

  /** The configuration of one operation node (the keys OpenUrls and its helpers read). */
  datatype OperationConfig = OperationConfig(
    name: string,
    pagination: Option<PaginationSpec>,
    getPageData: Option<Iteration -> HookOutcome>,
    getPageObject: Option<(PageObject, string) -> HookOutcome>,
    getPageResponse: HookSlot<Option<Page> -> HookOutcome>,
    getPageHtml: Option<(string, string) -> HookOutcome>,
    getException: Option<Thrown -> HookOutcome>,
    transformHref: Option<string -> string>)

  /**
   * The collaborators outside the core. `request(url, k)` is the transport's answer to the k-th
   * attempt at `url`; `paginationUrls` is getPaginationUrls; `dictionaryKey(name, tree)` is the key
   * getDictionaryKey's function picks; `scrapeChildren` is the node's children scraping a page.
   */
  datatype Env = Env(
    request: (string, nat) -> Result<Page, Thrown>,
    stripTags: string -> string,
    paginationUrls: (string, Option<PaginationSpec>) -> seq<string>,
    dictionaryKey: (string, PageObject) -> string,
    scrapeChildren: (PageContext, Cache) -> ChildrenRun)

  /**
   * The node's children scraping one page on the statics as they stand: their results or the
   * value thrown, the failures the nested nodes reported to the shared run context (in order),
   * the requests they issued, and the statics they left (a nested page helper rewrites them).
   */
  datatype ChildrenRun = ChildrenRun(result: Result<seq<ScrapeResult>, Value>, failed: seq<string>, requests: nat,
                                     cache: Cache)
}

=== FILE: scraper_config.dfy ===
/**
 * The pure part of the run context (Scraper.js): building the run configuration from the user's
 * object, the shape of the run counters, and the completion summary.
 */
module ScraperConfig {
  import opened Wrappers
  import opened JsValues

  /**
   * A page validator: receives the page's html and answers whether the page is to be scraped,
   * or throws.
   */
  type PageValidator = string -> Result<bool, Value>

  /**
   * The keys of the user's configuration object that the crawler reads. A key the user left out
   * is None; `usePuppeteer` is its truthiness.
   */
  datatype Settings = Settings(
    startUrl: string,
    baseSiteUrl: string,
    cloneFiles: Option<bool>,
    removeStyleAndScriptTags: Option<bool>,
    validatePageFunc: Option<PageValidator>,
    concurrency: Option<int>,
    maxRetries: Option<int>,
    errorCodesToSkip: Option<seq<int>>,
    delay: Option<int>,
    timeout: Option<int>,
    filePath: Option<string>,
    logPath: Option<string>,
    showConsoleLogs: Option<bool>,
    usePuppeteer: bool)

  /**
   * The argument handed to the Scraper constructor: nothing (or another falsy value), a truthy
   * value that is not an object, or an object with its settings.
   */
  datatype GlobalConfigArg = Falsy | NotAnObject | Object(settings: Settings)

  /** The run configuration as it stands once the constructor has finished. */
  datatype Config = Config(
    cloneFiles: bool,
    removeStyleAndScriptTags: bool,
    validatePageFunc: Option<PageValidator>,
    concurrency: int,
    maxRetries: int,
    errorCodesToSkip: seq<int>,
    startUrl: string,
    baseSiteUrl: string,
    delay: int,
    timeout: int,
    filePath: Option<string>,
    logPath: Option<string>,
    showConsoleLogs: bool,
    usePuppeteer: bool)

  /** The defaults the constructor starts from (Scraper.js:33-50). */
  const Defaults: Config := Config(
    cloneFiles := true,
    removeStyleAndScriptTags := true,
    validatePageFunc := None,
    concurrency := 3,
    maxRetries := 5,
    errorCodesToSkip := [],
    startUrl := "",
    baseSiteUrl := "",
    delay := 200,
    timeout := 6000,
    filePath := None,
    logPath := None,
    showConsoleLogs := true,
    usePuppeteer := false)

  /** The codes that are never retried, whatever the user configures. */
  const BuiltInSkipCodes: seq<int> := [404, 403, 400]

  const NotAnObjectMessage := "Scraper constructor expects a configuration object"
  const MissingUrlsMessage := "Please provide both baseSiteUrl and startUrl"
  const PuppeteerMessage := "usePuppeteer is deprecated since version 5. If you need it, downgrade to version 4.2.2"

  function OrElse<T>(o: Option<T>, default: T): T
  {
    if o.Some? then o.value else default
  }

  /** validateGlobalConfig: the argument must be an object with non-empty baseSiteUrl and startUrl. */
  function ValidateGlobalConfig(conf: GlobalConfigArg): (r: Outcome<string>)
    ensures r.Pass? <==> conf.Object? && conf.settings.baseSiteUrl != "" && conf.settings.startUrl != ""
  {
    match conf
    case Falsy => Fail(NotAnObjectMessage)
    case NotAnObject => Fail(NotAnObjectMessage)
    case Object(s) =>
      if s.baseSiteUrl == "" || s.startUrl == "" then Fail(MissingUrlsMessage) else Pass
  }

  /** Every key the user gave replaces the default (the effect of deepSpread on these flat keys). */
  function Spread(base: Config, s: Settings): Config
  {
    Config(
      cloneFiles := OrElse(s.cloneFiles, base.cloneFiles),
      removeStyleAndScriptTags := OrElse(s.removeStyleAndScriptTags, base.removeStyleAndScriptTags),
      validatePageFunc := if s.validatePageFunc.Some? then s.validatePageFunc else base.validatePageFunc,
      concurrency := OrElse(s.concurrency, base.concurrency),
      maxRetries := OrElse(s.maxRetries, base.maxRetries),
      errorCodesToSkip := OrElse(s.errorCodesToSkip, base.errorCodesToSkip),
      startUrl := s.startUrl,
      baseSiteUrl := s.baseSiteUrl,
      delay := OrElse(s.delay, base.delay),
      timeout := OrElse(s.timeout, base.timeout),
      filePath := if s.filePath.Some? then s.filePath else base.filePath,
      logPath := if s.logPath.Some? then s.logPath else base.logPath,
      showConsoleLogs := OrElse(s.showConsoleLogs, base.showConsoleLogs),
      usePuppeteer := s.usePuppeteer)
  }

  /**
   * What the Scraper constructor ends with: the configuration, or the value it throws. It
   * validates, spreads the user's keys over the defaults, puts the built-in skip codes in front
   * of the user's list, and only then refuses `usePuppeteer`.
   */
  function BuildConfig(conf: GlobalConfigArg): (r: Result<Config, string>)
  {
    match ValidateGlobalConfig(conf)
    case Fail(message) => Failure(message)
    case Pass =>
      var spread := Spread(Defaults, conf.settings);
      var config := spread.(errorCodesToSkip := BuiltInSkipCodes + spread.errorCodesToSkip);
      if config.usePuppeteer then Failure(PuppeteerMessage) else Success(config)
  }

  /** The user's own skip codes, in the order given; none when the key was left out. */
  function UserSkipCodes(s: Settings): seq<int>
  {
    OrElse(s.errorCodesToSkip, [])
  }

  /** Construction fails exactly for a non-object, a missing url, or usePuppeteer, with the matching message. */
  lemma BuildConfigFailures(conf: GlobalConfigArg)
    ensures BuildConfig(conf).Failure? <==>
      !conf.Object? || conf.settings.baseSiteUrl == "" || conf.settings.startUrl == "" || conf.settings.usePuppeteer
    ensures !conf.Object? ==> BuildConfig(conf) == Failure(NotAnObjectMessage)
    ensures conf.Object? && (conf.settings.baseSiteUrl == "" || conf.settings.startUrl == "") ==>
      BuildConfig(conf) == Failure(MissingUrlsMessage)
    ensures conf.Object? && conf.settings.baseSiteUrl != "" && conf.settings.startUrl != "" && conf.settings.usePuppeteer ==>
      BuildConfig(conf) == Failure(PuppeteerMessage)
  {
  }

  /** After construction the skip codes are 404, 403, 400 followed by the user's codes in their order. */
  lemma SkipCodesPrefixed(conf: GlobalConfigArg)
    requires BuildConfig(conf).Success?
    ensures BuildConfig(conf).value.errorCodesToSkip == BuiltInSkipCodes + UserSkipCodes(conf.settings)
    ensures conf.settings.errorCodesToSkip.None? ==> BuildConfig(conf).value.errorCodesToSkip == [404, 403, 400]
    ensures forall i :: 0 <= i < |UserSkipCodes(conf.settings)| ==>
      BuildConfig(conf).value.errorCodesToSkip[3 + i] == UserSkipCodes(conf.settings)[i]
  {
  }

  /** Settings the user leaves out keep their defaults; the ones given are taken as given. */
  lemma DefaultsApply(conf: GlobalConfigArg)
    requires BuildConfig(conf).Success?
    ensures var c := BuildConfig(conf).value; var s := conf.settings;
      && c.concurrency == (if s.concurrency.Some? then s.concurrency.value else 3)
      && c.maxRetries == (if s.maxRetries.Some? then s.maxRetries.value else 5)
      && c.delay == (if s.delay.Some? then s.delay.value else 200)
      && c.timeout == (if s.timeout.Some? then s.timeout.value else 6000)
      && c.removeStyleAndScriptTags == (s.removeStyleAndScriptTags != Some(false))
      && c.showConsoleLogs == (s.showConsoleLogs != Some(false))
      && c.startUrl == s.startUrl && c.baseSiteUrl == s.baseSiteUrl
      && !c.usePuppeteer
  {
  }

  /** The run counters and lists (Scraper.state); `Op` is the type of a registered operation. */
  datatype RunState<Op> = RunState(
    failedScrapingIterations: seq<string>,
    downloadedFiles: nat,
    currentlyRunning: int,
    registeredOperations: seq<Op>,
    numRequests: nat,
    repetitionCycles: nat)

  function InitialState<Op>(): RunState<Op>
  {
    RunState([], 0, 0, [], 0, 0)
  }

  /** areThereRepeatableErrors */
  predicate AreThereRepeatableErrors<Op>(st: RunState<Op>)
  {
    |st.failedScrapingIterations| > 0
  }

  const AllDoneMessage := "All done, no final errors"
  const FailedCountPrefix := "Number of requests that failed, in their last attempt: "

  /** The summary line `complete` logs for a run with `failed` failed iterations. */
  function CompletionSummary(failed: nat): string
  {
    if failed > 0 then FailedCountPrefix + NatToString(failed) else AllDoneMessage
  }

  /**
   * The summary is "All done" exactly when nothing failed; otherwise it reports the count, and
   * reading the digits after the prefix gives the count back.
   */
  lemma SummaryReportsFailures(failed: nat)
    ensures CompletionSummary(failed) == AllDoneMessage <==> failed == 0
    ensures failed > 0 ==>
      var s := CompletionSummary(failed);
      && s[..|FailedCountPrefix|] == FailedCountPrefix
      && (forall i :: |FailedCountPrefix| <= i < |s| ==> IsDigit(s[i]))
      && ParseDigits(s[|FailedCountPrefix|..]) == failed
  {
    if failed > 0 {
      var s := CompletionSummary(failed);
      assert |s| > |AllDoneMessage|;
      assert s[|FailedCountPrefix|..] == NatToString(failed);
      ParseNatToString(failed);
    }
  }

  /** Runs with different failure counts get different summaries. */
  lemma SummaryDistinguishesCounts(m: nat, n: nat)
    requires CompletionSummary(m) == CompletionSummary(n)
    ensures m == n
  {
    SummaryReportsFailures(m);
    SummaryReportsFailures(n);
    if m > 0 && n > 0 {
      var p := |FailedCountPrefix|;
      assert NatToString(m) == CompletionSummary(m)[p..];
      assert NatToString(n) == CompletionSummary(n)[p..];
      NatToStringInjective(m, n);
    }
  }
}

=== FILE: wrappers.dfy ===
/** Option, Result and Outcome: the error paths of the crawler are modelled with these instead of exceptions. */
module Wrappers {

  datatype Option<+T> = None | Some(value: T)

  /** The value of a call that may throw: Success(v) or Failure(thrown). */
  datatype Result<+R, +E> = Success(value: R) | Failure(error: E)

  /** The value of a call that returns nothing but may throw. */
  datatype Outcome<+E> = Pass | Fail(error: E)
}
